=== FILE: README.md ===
# Vehicle-lead flow of a car-buying marketing site, modelled in Dafny

The site lets a visitor ask for a car appraisal. It does this with two
forms that look up the car in the public FIPE price table (vehicle type,
then brand, then model, then model year). The visitor then leaves contact
details, a unit and a time slot, and a server action validates the request.
This project models that flow and proves properties of the model:

- `fipe.dfy` (`module Fipe`): the FIPE hooks. It covers the URL builders,
  which give no URL unless every parent code is present, and the
  normalisation of responses to lists. It also covers the `useFipe` state
  cell (class `FipeCell`), whose `isMounted` guard drops the result of a
  superseded request. The guard is modelled as a generation tag.
- `actions.dfy` (`module Actions`): the two server actions,
  `scheduleAppointment` and `submitB2bLead`. Their zod schemas become
  issue lists over the optional strings read from the form data, and their
  answers become `ActionResult` values.
- `appointment_form.dfy` (`module Appointment`): the three-step appointment
  form as a class. Each `useEffect` body and each handler is one method. A
  fetch is split into the method that issues it (which returns the
  requests) and `Complete`. `Submit` builds the FormData with a loop and is
  proved equal to the `Payload` function. `PayloadFields` states what the
  server reads back from that payload.
- `hero_form.dfy` (`module Hero`): the hero quick form. It covers the
  dropdown's case-insensitive filter and display precedence, the button
  labels, and the six-key query of the submit. The class
  `HeroAppointmentForm` holds three `FipeCell`s and the dropdown state
  machine.
- `site_data.dfy` (`module SiteData`): the placeholder-image lookup, the
  business units, the WhatsApp link with its fallback unit, and the time
  slots.
- `parity.dfy` (`module Parity`): the client against the server. It proves
  that every submission of the appointment form is rejected as written, and
  that a corrected pair accepts everything the client's own validation lets
  through. See "Findings".
- `common.dfy` (`module Common`): `Option`, JavaScript truthiness of an
  optional string, the first-value lookup used by `FormData.get` and
  `URLSearchParams.get`, `Array.prototype.find`, and the UTF-16 length
  zod's `min` checks compare against.

Behaviour of the code worth knowing, as the model has it:

- The appointment form's fetch effects have no stale-result guard.
  `Appointment.AppointmentForm.Complete` applies every completion, whichever
  request it belongs to. Only the hooks in `use-fipe.ts` drop superseded
  results.
- Changing the vehicle type re-runs the model and year effects with the
  brand and model of the previous render. So a stale brand or model issues
  fetches under the new type (`ChangeVehicleType`). The loading flag then
  ends on the last of those requests, not on the brand request.
- `scheduleAppointment` answers with a fixed success message. The
  confirmation with name, date and unit is rendered by the client.
- In the hero form, the hook effects run before the form's reset effects.
  Choosing a new brand while a model is chosen therefore first points the
  years hook at the new brand with the old model. The next render drops
  that request. If that URL was new, the years label is left on
  "Carregando..." with no fetch pending that could clear it (the last
  `ensures` of `Hero.HeroAppointmentForm.SwitchBrand`).

## Model

| member | source | states |
|---|---|---|
| Common.Lookup | src/app/actions.ts:28-36 | `formData.get(key)` gives the first value stored under the key. The result is null exactly when no pair has that key. |
| Common.FindFirst | src/lib/data.ts:6 | `Array.prototype.find` gives nothing exactly when no element satisfies the test, and otherwise the first element that does. |
| Common.Utf16Length | src/app/actions.ts:6-23 | A JavaScript length counts UTF-16 code units: between one and two per character, and exactly one per character when none lies beyond U+FFFF. |
| Common.Utf16LengthChar | src/app/actions.ts:6-23 | A character is one UTF-16 unit, or two when it lies beyond U+FFFF. |
| Common.Utf16LengthAppend | src/app/actions.ts:6-23 | The length of a concatenation is the sum of the lengths. |
| Fipe.UrlPresentIffParents | src/hooks/use-fipe.ts:66-87 | The brands, models and years URLs each exist exactly when the vehicle type and every parent code they need are truthy. |
| Fipe.UrlChain | src/hooks/use-fipe.ts:5-87 | A years URL extends the models URL for the same type and brand. A models URL extends the brands URL. Every URL starts with the API base. |
| Fipe.BrandsPathInjective | src/hooks/use-fipe.ts:66 | Different vehicle types get different brand URLs. |
| Fipe.ItemsOrEmpty | src/hooks/use-fipe.ts:68 | Brand and year data handed to callers is the raw array when the data is an array, and `[]` otherwise. |
| Fipe.ModelosOrEmpty | src/hooks/use-fipe.ts:79 | Models data is exactly the `modelos` array when the response is an object whose `modelos` is an array, and `[]` otherwise (also for a bare array). |
| Fipe.ErrorText | src/hooks/use-fipe.ts:32-42 | A non-ok response stores "Falha ao buscar dados da FIPE: " followed by the status text. A thrown error stores its own message when that is non-empty, and the default text otherwise. |
| Fipe.FipeCell.constructor | src/hooks/use-fipe.ts:15-56 | At the first render, data and error are null, and loading is on exactly when a URL is given (the mount effect starts the fetch). |
| Fipe.FipeCell.ChangeUrl | src/hooks/use-fipe.ts:20-56 | The same URL leaves the cell unchanged. A new null URL clears data and fetches nothing. A new URL turns loading on, clears the error and starts a fetch under a fresh generation. It keeps the invariant that a running spinner has a pending fetch and that a cell without a URL holds no data. |
| Fipe.FipeCell.Complete | src/hooks/use-fipe.ts:26-55 | A completion from a superseded run changes no data, error or loading. The current run stores the result as data, or the error text while leaving data unchanged, and ends loading. |
| Actions.Flatten | src/app/actions.ts:43 | A field appears in `fieldErrors` exactly when some issue is about it. |
| Actions.FlattenSingle | src/app/actions.ts:43 | A field with exactly one issue is reported with exactly that message. |
| Actions.FlattenAppendAvoiding | src/app/actions.ts:43 | Issues about other fields appended after a list leave a field's presence and messages as the list had them. |
| Actions.FlattenPrependAvoiding | src/app/actions.ts:43 | Issues about other fields put before a list leave a field's presence and messages as the list had them. |
| Actions.StringMin | src/app/actions.ts:6-13 | `z.string().min(n)` reports no issue exactly when the value is present with a JavaScript length of at least n. A missing value gets the null message and a short one the schema's message, both under that field. |
| Actions.AstralNamePassesMinTwo | src/app/actions.ts:10 | A name made of one character beyond U+FFFF passes `min(2)`, and a one-letter ASCII name does not. |
| Actions.DateIssues | src/app/actions.ts:12 | The date passes when it is missing (`new Date(null)` is valid) or when it parses. Otherwise it fails with "Invalid date". |
| Actions.ConsentIssues | src/app/actions.ts:14-16 | Consent passes exactly when the raw value is "on". Otherwise it fails with "Você deve aceitar os termos.". |
| Actions.AppointmentIssuesIff | src/app/actions.ts:5-17 | The appointment schema reports no issue exactly when the vehicle fields, reason, unit and time are non-empty, the name has at least 2 characters, the date is valid or missing, and consent is "on". |
| Actions.ConsentRejectedUnlessOn | src/app/actions.ts:36 | `lgpdConsent` is among the field errors exactly when the raw value is not "on", and then only with the consent message. |
| Actions.ScheduleAppointment | src/app/actions.ts:26-60 | An acceptable request answers "Agendamento recebido com sucesso!" with `success: true` when saving does not throw, and the failure message without `success` when it does. A rejected request gets the validation message, non-empty field errors and no `success`. `success` appears in no other case. |
| Actions.OnlySchemaKeysMatter | src/app/actions.ts:27-37 | Two requests that agree on the nine schema keys get the same answer, so the phone never matters. |
| Actions.EmailIssues | src/app/actions.ts:22 | The e-mail passes exactly when it is present and satisfies the e-mail predicate. |
| Actions.B2bIssuesIff | src/app/actions.ts:19-24 | A B2B lead passes exactly when name and company have at least 2 characters, the e-mail is valid and the phone has at least 10 characters. |
| Actions.SubmitB2bLead | src/app/actions.ts:62-85 | An acceptable lead answers the lead-received message with `success: true` when saving does not throw, and the lead failure message when it does. A rejected lead gets the validation message and non-empty field errors. |
| Appointment.StepTwoIgnoresStepThree | src/components/forms/appointment-form.tsx:32-41 | The step-2 gate (`trigger(["name", "phone", "unit"])`) depends on name, phone and unit only, and requires each to be non-empty. |
| Appointment.ClientSchemaPayload | src/components/forms/appointment-form.tsx:32-41 | `formSchema` holds exactly when the payload carries name, phone, unit and time of the schema's lengths, a date, and consent as "true". |
| Appointment.FindByCode | src/components/forms/appointment-form.tsx:231 | Picking a code yields the first item with that code, or null when no item has it. |
| Appointment.ModelsFetch | src/components/forms/appointment-form.tsx:123-133 | Without a brand no model request is issued. Otherwise exactly one request is issued, to the same URL the models hook builds for that type and brand. |
| Appointment.YearsFetch | src/components/forms/appointment-form.tsx:146-154 | A year request is issued only when the render saw both a model and a brand. Then exactly one request is issued, to the same URL the years hook builds. With a model but no brand the URL expression throws first. |
| Appointment.NameOrEmpty | src/components/forms/appointment-form.tsx:188-190 | The payload carries the display name of a selection, or "" when nothing is selected. |
| Appointment.FinalDataKeys | src/components/forms/appointment-form.tsx:185-191 | `finalData` has ten distinct keys in a fixed order, and none of them is `reasonForSelling`. |
| Appointment.PayloadKeysDistinct | src/components/forms/appointment-form.tsx:185-191 | The ten payload keys are pairwise distinct and none of them is `reasonForSelling`. |
| Appointment.Serialized | src/components/forms/appointment-form.tsx:193-199 | Undefined values are omitted. Strings are sent as they are, booleans as the text "true"/"false", and dates as their ISO text. |
| Appointment.EncodedUnique | src/components/forms/appointment-form.tsx:193-199 | A key carried by exactly one entry reads back from the FormData as that entry's serialized value. |
| Appointment.EncodedPayloadKeys | src/components/forms/appointment-form.tsx:193-199 | Entries keyed by the payload keys read back, key by key, as their serialized values, and `reasonForSelling` reads back as null. |
| Appointment.PayloadFields | src/components/forms/appointment-form.tsx:185-199 | The server reads back each form value under its own key and consent as "true"/"false". It reads the vehicle's display names, the date only once picked, and no `reasonForSelling`. |
| Appointment.AppointmentForm.constructor | src/components/forms/appointment-form.tsx:66-96 | The form starts on step 1 with type "carros", nothing selected, empty lists, no loading or error, and the default contact values. |
| Appointment.AppointmentForm.Mount | src/components/forms/appointment-form.tsx:99-164 | Mounting issues only the brand request and sets loading to brands. |
| Appointment.AppointmentForm.BrandsEffect | src/components/forms/appointment-form.tsx:99-120 | This effect clears brand, model, year, models and years, sets loading to brands and clears the error, then issues the brand request. |
| Appointment.AppointmentForm.ModelsEffect | src/components/forms/appointment-form.tsx:123-143 | With no brand, nothing changes. With a brand, it clears model, year and years, sets loading to models, and issues the model request. |
| Appointment.AppointmentForm.YearsEffect | src/components/forms/appointment-form.tsx:146-164 | With no model, nothing changes. With a model, it clears the year before the year request. A missing brand ends in the years error. |
| Appointment.AppointmentForm.ChangeVehicleType | src/components/forms/appointment-form.tsx:99-164 | A new type clears every selection, models and years, and issues the brand request plus any request the stale brand and model trigger. Loading ends on years, models or brands as the stale model and brand were set, and a stale model without a brand ends in the years error. The same type changes nothing. |
| Appointment.AppointmentForm.SelectBrand | src/components/forms/appointment-form.tsx:123-164 | The brand becomes the first item with the chosen code. A new brand clears model, year and years and issues the models request, then the years request for the model the previous render saw. Loading and error follow the last effect that ran: years when a model was set, models otherwise. A brand that becomes null issues no models request; with a model set it clears the year and ends in the years error, and without one nothing else changes. |
| Appointment.AppointmentForm.SelectModel | src/components/forms/appointment-form.tsx:146-164 | The model becomes the first item with the chosen code. A new model clears the year, sets loading to years and issues the years request. A model that becomes null leaves the year, loading and error as they were. |
| Appointment.AppointmentForm.SelectYear | src/components/forms/appointment-form.tsx:222-242 | The year becomes the first item with the chosen code. |
| Appointment.AppointmentForm.Complete | src/components/forms/appointment-form.tsx:109-161 | A failure sets that level's error text, and a list replaces that level's list. Either way loading ends. |
| Appointment.AppointmentForm.NextStep | src/components/forms/appointment-form.tsx:167-178 | Step 1 advances only with type, brand, model and year set. Step 2 advances only when name, phone and unit validate. Step 3 never advances. The step stays within 1..3. |
| Appointment.AppointmentForm.PrevStep | src/components/forms/appointment-form.tsx:180 | Offered only above step 1, it goes back one step and keeps the invariant. |
| Appointment.AppointmentForm.EnterName | src/components/forms/appointment-form.tsx:284 | Only the name changes. |
| Appointment.AppointmentForm.EnterPhone | src/components/forms/appointment-form.tsx:55-61 | Only the phone text changes. |
| Appointment.AppointmentForm.ChooseUnit | src/components/forms/appointment-form.tsx:299-306 | Only the unit changes, to the id of one of the units. |
| Appointment.AppointmentForm.PickDate | src/components/forms/appointment-form.tsx:326-330 | A day before today is ignored. Another day is selected, and clicking the selected day again clears it. |
| Appointment.AppointmentForm.ChooseTime | src/components/forms/appointment-form.tsx:345-348 | Only the time changes, to one of the time slots. |
| Appointment.AppointmentForm.SetConsent | src/components/forms/appointment-form.tsx:361 | Only the consent flag changes. |
| Appointment.AppointmentForm.Submit | src/components/forms/appointment-form.tsx:182-201 | The loop that appends each entry builds exactly `Payload` of the current state. |
| Hero.LowerChar | src/components/forms/hero-appointment-form.tsx:24 | Each capital becomes its own small letter (32 code points up), and every other character is left alone. |
| Hero.ToLowerIdempotent | src/components/forms/hero-appointment-form.tsx:24 | Lower-casing a lower-cased string changes nothing. |
| Hero.MatchesIgnoresCase | src/components/forms/hero-appointment-form.tsx:23-25 | Search terms that differ only in case select the same items, and so does lower-casing the item's name. |
| Hero.FilteredItems | src/components/forms/hero-appointment-form.tsx:23-25 | An item is listed exactly when it is in the list and its lower-cased name contains the lower-cased term. |
| Hero.EmptyTermKeepsAll | src/components/forms/hero-appointment-form.tsx:23-25 | An empty search keeps every item, in order. |
| Hero.FilterAppend | src/components/forms/hero-appointment-form.tsx:23-25 | Filtering distributes over concatenation, so it keeps the original order. |
| Hero.FilterIdempotent | src/components/forms/hero-appointment-form.tsx:23-25 | Filtering the filtered list again changes nothing. |
| Hero.DropdownBody | src/components/forms/hero-appointment-form.tsx:65-77 | Loading comes first, then an error, then the matching items, then "Nenhum resultado." exactly when nothing matches. |
| Hero.SelectionLabel | src/components/forms/hero-appointment-form.tsx:137-140 | The label is "Carregando..." while loading, else the selected name if it is non-empty, else the default. |
| Hero.SubmitQuery | src/components/forms/hero-appointment-form.tsx:120-134 | Submit yields a query exactly when brand, model and year are all chosen, with the six keys in order. |
| Hero.SubmitQueryRoundTrip | src/components/forms/hero-appointment-form.tsx:126-133 | Reading the query back gives each selection's code and name under its key. |
| Hero.HeroAppointmentForm.constructor | src/components/forms/hero-appointment-form.tsx:84-98 | The form starts with nothing chosen and no dropdown open. Only the brands hook is fetching. |
| Hero.HeroAppointmentForm.SelectBrand | src/components/forms/hero-appointment-form.tsx:96-112 | The brand is set and the model dropdown opens. A new brand clears model and year, starts a models fetch (loading on, error cleared, a fresh pending tag) whenever the models URL changes, and leaves the years hook with no URL and no data. When the models URL stays the same the models hook is unchanged; when it becomes null its loading and error are kept. With no model selected the years hook is unchanged. When the intermediate years URL is new, the stale request leaves its spinner on with the error cleared and no fetch pending; otherwise the years loading and error are kept. |
| Hero.HeroAppointmentForm.SwitchBrand | src/components/forms/hero-appointment-form.tsx:96-112 | A brand other than the selected one clears model and year, starts the models fetch for it when its URL is new, and leaves the years hook with no URL and no data. An unchanged models URL leaves the models hook unchanged, and a null one keeps its loading and error. With no model selected the years hook is unchanged. A new intermediate years URL leaves the spinner on with the error cleared and no fetch pending; otherwise the years loading and error are kept. |
| Hero.HeroAppointmentForm.SelectModel | src/components/forms/hero-appointment-form.tsx:98-112 | The model is set and the year dropdown opens. A new model clears the year and re-points the years hook, which starts a fetch (loading on, error cleared, a fresh pending tag) whenever its URL changes to a non-null one. An unchanged years URL leaves the years hook unchanged, and a null one keeps its loading and error. |
| Hero.HeroAppointmentForm.SelectYear | src/components/forms/hero-appointment-form.tsx:109-112 | The year is set, every dropdown closes and submit becomes possible. |
| Hero.HeroAppointmentForm.ToggleDropdown | src/components/forms/hero-appointment-form.tsx:114-118 | The model dropdown does nothing without a brand, and the year dropdown nothing without a model. Otherwise the open dropdown closes and any other opens. |
| Hero.HeroAppointmentForm.CloseDropdown | src/components/forms/hero-appointment-form.tsx:29-47 | The close button or a click outside closes the dropdown, and no selection changes. |
| Hero.HeroAppointmentForm.TypeSearch | src/components/forms/hero-appointment-form.tsx:53-59 | Only the search text of the open brand or model dropdown changes. |
| Hero.HeroAppointmentForm.CompleteFetch | src/hooks/use-fipe.ts:26-55 | The named hook's fetch ends as `FipeCell.Complete` says: a current one stores its data or error text and stops the spinner, a superseded one changes nothing. The selections and the open dropdown stay as they were. |
| SiteData.FindImage | src/lib/data.ts:6 | The lookup gives the first catalogue record with the id, or nothing when no record has it. |
| SiteData.GetPlaceholderImage | src/lib/data.ts:5-11 | The result is the matching record's url and hint, else the placehold.co image with hint "placeholder". |
| SiteData.PlaceholderImageFound | src/lib/data.ts:5-11 | An id first listed at index i resolves to record i's url and hint. |
| SiteData.UnitsWellFormed | src/lib/data.ts:13-53 | There are three units with pairwise distinct ids, and each id equals its slug. |
| SiteData.FindUnit | src/lib/data.ts:97 | The lookup gives the first unit with the id. An undefined or unknown id gives nothing. |
| SiteData.GetWhatsAppLink | src/lib/data.ts:94-101 | Every link starts with "https://wa.me/". |
| SiteData.WhatsAppLinkOfUnit | src/lib/data.ts:96-100 | A unit's id gives exactly base + that unit's WhatsApp number + "?text=" + the encoded message, or the encoded default greeting. |
| SiteData.WhatsAppLinkFallback | src/lib/data.ts:96-100 | An unknown or absent id falls back to the first unit's number. |
| SiteData.SlotMinutes | src/lib/data.ts:103-106 | Slots run half-hourly from 09:00 (six morning slots) and then from 14:00. |
| SiteData.TimeSlotsAdjacent | src/lib/data.ts:103-106 | Each slot is a well-formed "HH:MM" later than the one before it. |
| SiteData.AdjacentToSorted | src/lib/data.ts:103-106 | Times that increase step by step increase throughout. |
| SiteData.TimeSlotsSorted | src/lib/data.ts:103-106 | There are 13 well-formed slots in strictly increasing order. |
| Parity.ConsentNeverOn | src/components/forms/appointment-form.tsx:193-198 | Whatever the user ticks, the submitted consent value is never "on". |
| Parity.FlattenFourthOfNine | src/app/actions.ts:43 | When only the fourth of the nine schema parts is about a field, that field's errors are the fourth part's own. |
| Parity.MissingReasonReported | src/app/actions.ts:9-31 | A request without `reasonForSelling` is reported under that field as a null value. |
| Parity.EverySubmissionRejected | src/app/actions.ts:26-45 | Every AppointmentForm submission gets the validation message and no `success`. Its field errors include both the reason and the consent. |
| Parity.ConsentValue | src/components/forms/appointment-form.tsx:196-197 | (corrected) A ticked box is sent as "on" and an unticked one is omitted. |
| Parity.CorrectedFinalData | src/components/forms/appointment-form.tsx:185-191 | (corrected) This differs from `finalData` only in the consent entry and keeps the same keys. |
| Parity.CorrectedPayloadFields | src/components/forms/appointment-form.tsx:185-199 | (corrected) The server reads back every field under its own key, with consent "on" exactly when ticked, and no `reasonForSelling`. |
| Parity.ScheduleAppointmentCorrected | src/app/actions.ts:26-60 | (corrected) `success` is present exactly when the form's own schema accepts and saving did not throw. Otherwise the result has the same shape as the written action. |
| Parity.CorrectionOnlyDropsReason | src/app/actions.ts:5-17 | For a request that carries a reason, the corrected action answers exactly as the written one. |
| Parity.CorrectedRoundTrip | src/app/actions.ts:27-55 | Whatever passes the client schema with a complete vehicle and a parseable date is accepted by the corrected server. |

## Left out

- Network and JSON: `fetch` and `response.json()` are not modelled. A completion is an event carrying a list, a parsed JSON shape or a failure. The hooks' `!response.ok` check is kept as `Fipe.HttpFailure`; the appointment form never looks at the status.
- Appointment.AppointmentForm.Complete: does not model a response whose body is not the expected shape. The source stores whatever body it parsed in `brands` or `years` (an error object, say), and stores `undefined` in `models` when the body has no `modelos`. A completion carries a list or a failure.
- React scheduling: effects and handlers are atomic methods, and a render is the state between them. This leaves out `useTransition`, `useFormState`, the pending flag, `router.push` and the unmount cleanup of the hooks.
- Object identity: React compares selections by reference. The model compares them by value, so re-selecting an equal item counts as "no change".
- Dates: a calendar day is an integer, "today" is a parameter, and `toISOString` and the server's Date parsing are the parameters `toIso` and `isValidDate`. Time zones and `date-fns` formatting are not modelled.
- Foreign functions: zod's e-mail check and `encodeURIComponent` are parameters. The phone mask is reduced to the text it produces.
- Hero.LowerChar: lowers only ASCII and Latin-1 capitals, not the whole of Unicode as `toLowerCase` does.
- Hero.SubmitQuery: gives the parameter list, not the percent-encoded text of `URLSearchParams.toString`. The scheduling page that receives the query is not part of this model.
- Hero.HeroAppointmentForm.CompleteFetch: does not model the `console.error` call of the hook.
- Server work: the logging, the one-second delay and the commented-out store call are reduced to one flag saying whether that code threw.
- The progress bar percentage, all rendering (alerts, labels, icons, layout), the b2b form component, the contact modal, the FAQ section, structured data and the marketing tables (FAQs, reviews, steps, navigation, benefits) carry no logic worth proving and are not modelled.
- Unit coordinates and map URLs are left out of `SiteData.Unit`. The unit's image is kept as the catalogue id it is looked up by.

## Findings

| source | as written | input that shows it | evidently intended | confidence | as-written member | corrected member |
|---|---|---|---|---|---|---|
| src/components/forms/appointment-form.tsx:193-198 | The consent checkbox is sent as `String(true)`, the text "true", and the server (src/app/actions.ts:36) accepts only "on". | Any submission with the box ticked: `lgpdConsent=true` is rejected with "Você deve aceitar os termos." | A ticked box is sent as "on", the checkbox's native form value, so consent passes. | not executed | Parity.ConsentNeverOn | Parity.CorrectedRoundTrip |
| src/app/actions.ts:9 | The appointment schema requires `reasonForSelling`, which the appointment form never sends. | Any submission: `reasonForSelling` is null and is reported as "Expected string, received null". | The form is checked against the schema of the fields it has, without the reason. | not executed | Parity.EverySubmissionRejected | Parity.CorrectedRoundTrip |

=== FILE: actions.dfy ===
/**
 * The server actions (src/app/actions.ts): the zod schemas
 * `appointmentSchema` and `b2bLeadSchema` applied to the posted form data,
 * and the result objects `scheduleAppointment` and `submitB2bLead` return.
 * Logging, the simulated delay and the (commented-out) store call are
 * reduced to one flag saying whether the `try` block threw.
 */
module Actions {
  import opened Common

  /** Posted form data: key/value pairs in the order they were appended. */
  type FormData = seq<(string, string)>

  /** One zod issue: the field it is reported under and its message. */
  datatype Issue = Issue(field: string, message: string)

  /** `error.flatten().fieldErrors`: each field with its messages, in order. */
  type FieldErrors = map<string, seq<string>>

  function Flatten(issues: seq<Issue>): (errors: FieldErrors)
    ensures forall k :: k in errors <==> exists i :: 0 <= i < |issues| && issues[i].field == k
  {
    if issues == [] then map[]
    else
      var rest := Flatten(issues[..|issues| - 1]);
      var last := issues[|issues| - 1];
      rest[last.field := (if last.field in rest then rest[last.field] else []) + [last.message]]
  }

  /** A field with exactly one issue is reported with exactly that message. */
  lemma {:induction false} FlattenSingle(issues: seq<Issue>, i: nat)
    requires i < |issues|
    requires forall j :: 0 <= j < |issues| && j != i ==> issues[j].field != issues[i].field
    ensures issues[i].field in Flatten(issues)
    ensures Flatten(issues)[issues[i].field] == [issues[i].message]
  {
    var front := issues[..|issues| - 1];
    if i < |issues| - 1 {
      FlattenSingle(front, i);
    } else {
      assert issues[i].field !in Flatten(front);
    }
  }

  /** No issue of `issues` is about `field`. */
  predicate Avoids(issues: seq<Issue>, field: string) {
    forall j :: 0 <= j < |issues| ==> issues[j].field != field
  }

  /** Issues about other fields, appended after `a`, leave `field`'s entry as `a` has it. */
  lemma {:induction false} FlattenAppendAvoiding(a: seq<Issue>, b: seq<Issue>, field: string)
    requires Avoids(b, field)
    ensures field in Flatten(a + b) <==> field in Flatten(a)
    ensures field in Flatten(a) ==> Flatten(a + b)[field] == Flatten(a)[field]
  {
    if b == [] {
      assert a + b == a;
    } else {
      var front := b[..|b| - 1];
      assert (a + b)[..|a + b| - 1] == a + front;
      FlattenAppendAvoiding(a, front, field);
    }
  }

  /** Issues about other fields, put before `b`, leave `field`'s entry as `b` has it. */
  lemma {:induction false} FlattenPrependAvoiding(a: seq<Issue>, b: seq<Issue>, field: string)
    requires Avoids(a, field)
    ensures field in Flatten(a + b) <==> field in Flatten(b)
    ensures field in Flatten(b) ==> Flatten(a + b)[field] == Flatten(b)[field]
  {
    if b == [] {
      assert a + b == a;
    } else {
      var front := b[..|b| - 1];
      assert (a + b)[..|a + b| - 1] == a + front;
      FlattenPrependAvoiding(a, front, field);
    }
  }

  const NullMessage: string := "Expected string, received null"

  /**
   * `z.string().min(n, message)` on a form value (null when the key is
   * missing); the length is JavaScript's, in UTF-16 code units.
   */
  function StringMin(field: string, raw: Option<string>, n: nat, message: string): (issues: seq<Issue>)
    ensures |issues| <= 1
    ensures issues == [] <==> raw.Some? && Utf16Length(raw.value) >= n
    ensures raw.None? ==> issues == [Issue(field, NullMessage)]
    ensures raw.Some? && Utf16Length(raw.value) < n ==> issues == [Issue(field, message)]
    ensures forall i :: 0 <= i < |issues| ==> issues[i].field == field
  {
    if raw.None? then [Issue(field, NullMessage)]
    else if Utf16Length(raw.value) < n then [Issue(field, message)]
    else []
  }

  /** A one-character name beyond U+FFFF is two UTF-16 units long, so it passes `.min(2)`. */
  lemma AstralNamePassesMinTwo()
    ensures StringMin("name", Some("\U{1F600}"), 2, "Nome é obrigatório") == []
    ensures StringMin("name", Some("a"), 2, "Nome é obrigatório") == [Issue("name", "Nome é obrigatório")]
  {
    Utf16LengthChar('\U{1F600}');
    Utf16LengthChar('a');
  }

  const ConsentMessage: string := "Você deve aceitar os termos."
  const InvalidDateMessage: string := "Invalid date"
  const ValidationMessage: string := "Erro de validação. Verifique os campos."

  /**
   * `preferredDate: new Date(formData.get("preferredDate") as string)` checked
   * by `z.date()`. A missing value is `new Date(null)`, the epoch, which is a
   * valid Date; a present one is valid when `isValidDate` says the Date
   * constructor parses it.
   */
  function DateIssues(raw: Option<string>, isValidDate: string -> bool): (issues: seq<Issue>)
    ensures issues == [] <==> raw.None? || isValidDate(raw.value)
    ensures forall i :: 0 <= i < |issues| ==> issues[i] == Issue("preferredDate", InvalidDateMessage)
  {
    if raw.Some? && !isValidDate(raw.value) then [Issue("preferredDate", InvalidDateMessage)] else []
  }

  /** `lgpdConsent: formData.get("lgpdConsent") === 'on'` checked by `z.literal(true)`. */
  function ConsentIssues(raw: Option<string>): (issues: seq<Issue>)
    ensures issues == [] <==> raw == Some("on")
    ensures forall i :: 0 <= i < |issues| ==> issues[i] == Issue("lgpdConsent", ConsentMessage)
  {
    if raw == Some("on") then [] else [Issue("lgpdConsent", ConsentMessage)]
  }

  /** All issues `appointmentSchema.safeParse` reports, in the schema's field order. */
  function AppointmentIssues(fd: FormData, isValidDate: string -> bool): seq<Issue> {
    StringMin("vehicleBrand", Lookup(fd, "vehicleBrand"), 1, "Marca é obrigatória")
    + StringMin("vehicleModel", Lookup(fd, "vehicleModel"), 1, "Modelo é obrigatório")
    + StringMin("vehicleYear", Lookup(fd, "vehicleYear"), 1, "Ano é obrigatório")
    + StringMin("reasonForSelling", Lookup(fd, "reasonForSelling"), 1, "Motivo é obrigatório")
    + StringMin("name", Lookup(fd, "name"), 2, "Nome é obrigatório")
    + StringMin("unit", Lookup(fd, "unit"), 1, "Unidade é obrigatória")
    + DateIssues(Lookup(fd, "preferredDate"), isValidDate)
    + StringMin("preferredTime", Lookup(fd, "preferredTime"), 1, "Horário é obrigatório")
    + ConsentIssues(Lookup(fd, "lgpdConsent"))
  }

  /** A form value that is present and at least `n` UTF-16 code units long. */
  predicate HasMin(raw: Option<string>, n: nat) {
    raw.Some? && Utf16Length(raw.value) >= n
  }

  /** What `appointmentSchema` accepts, field by field. */
  predicate AppointmentAcceptable(fd: FormData, isValidDate: string -> bool) {
    && HasMin(Lookup(fd, "vehicleBrand"), 1)
    && HasMin(Lookup(fd, "vehicleModel"), 1)
    && HasMin(Lookup(fd, "vehicleYear"), 1)
    && HasMin(Lookup(fd, "reasonForSelling"), 1)
    && HasMin(Lookup(fd, "name"), 2)
    && HasMin(Lookup(fd, "unit"), 1)
    && (Lookup(fd, "preferredDate").None? || isValidDate(Lookup(fd, "preferredDate").value))
    && HasMin(Lookup(fd, "preferredTime"), 1)
    && Lookup(fd, "lgpdConsent") == Some("on")
  }

  /** The schema reports no issue exactly when every field is acceptable. */
  lemma AppointmentIssuesIff(fd: FormData, isValidDate: string -> bool)
    ensures AppointmentIssues(fd, isValidDate) == [] <==> AppointmentAcceptable(fd, isValidDate)
  {
    var brand := StringMin("vehicleBrand", Lookup(fd, "vehicleBrand"), 1, "Marca é obrigatória");
    var model := StringMin("vehicleModel", Lookup(fd, "vehicleModel"), 1, "Modelo é obrigatório");
    var year := StringMin("vehicleYear", Lookup(fd, "vehicleYear"), 1, "Ano é obrigatório");
    var reason := StringMin("reasonForSelling", Lookup(fd, "reasonForSelling"), 1, "Motivo é obrigatório");
    var name := StringMin("name", Lookup(fd, "name"), 2, "Nome é obrigatório");
    var unit := StringMin("unit", Lookup(fd, "unit"), 1, "Unidade é obrigatória");
    var date := DateIssues(Lookup(fd, "preferredDate"), isValidDate);
    var time := StringMin("preferredTime", Lookup(fd, "preferredTime"), 1, "Horário é obrigatório");
    var consent := ConsentIssues(Lookup(fd, "lgpdConsent"));
    assert AppointmentIssues(fd, isValidDate) == brand + model + year + reason + name + unit + date + time + consent;
    assert |AppointmentIssues(fd, isValidDate)|
      == |brand| + |model| + |year| + |reason| + |name| + |unit| + |date| + |time| + |consent|;
  }

  /**
   * Of nine schema parts in a row, only the last is about `f`: the reported
   * entry of `f` is the last part's own.
   */
  lemma FlattenLastOfNine(p1: seq<Issue>, p2: seq<Issue>, p3: seq<Issue>, p4: seq<Issue>, p5: seq<Issue>,
                          p6: seq<Issue>, p7: seq<Issue>, p8: seq<Issue>, p9: seq<Issue>, f: string)
    requires Avoids(p1, f) && Avoids(p2, f) && Avoids(p3, f) && Avoids(p4, f)
    requires Avoids(p5, f) && Avoids(p6, f) && Avoids(p7, f) && Avoids(p8, f)
    ensures f in Flatten(p1 + p2 + p3 + p4 + p5 + p6 + p7 + p8 + p9) <==> f in Flatten(p9)
    ensures f in Flatten(p9) ==> Flatten(p1 + p2 + p3 + p4 + p5 + p6 + p7 + p8 + p9)[f] == Flatten(p9)[f]
  {
    assert Avoids(p1 + p2 + p3 + p4 + p5 + p6 + p7 + p8, f);
    FlattenPrependAvoiding(p1 + p2 + p3 + p4 + p5 + p6 + p7 + p8, p9, f);
  }

  /** Consent is rejected, with its own message, unless the raw value is "on". */
  lemma ConsentRejectedUnlessOn(fd: FormData, isValidDate: string -> bool)
    ensures var errors := Flatten(AppointmentIssues(fd, isValidDate));
      && ("lgpdConsent" in errors <==> Lookup(fd, "lgpdConsent") != Some("on"))
      && ("lgpdConsent" in errors ==> errors["lgpdConsent"] == [ConsentMessage])
  {
    var f := "lgpdConsent";
    var consent := ConsentIssues(Lookup(fd, f));
    if Lookup(fd, f) != Some("on") {
      assert consent == [Issue(f, ConsentMessage)];
    }
    FlattenLastOfNine(
      StringMin("vehicleBrand", Lookup(fd, "vehicleBrand"), 1, "Marca é obrigatória"),
      StringMin("vehicleModel", Lookup(fd, "vehicleModel"), 1, "Modelo é obrigatório"),
      StringMin("vehicleYear", Lookup(fd, "vehicleYear"), 1, "Ano é obrigatório"),
      StringMin("reasonForSelling", Lookup(fd, "reasonForSelling"), 1, "Motivo é obrigatório"),
      StringMin("name", Lookup(fd, "name"), 2, "Nome é obrigatório"),
      StringMin("unit", Lookup(fd, "unit"), 1, "Unidade é obrigatória"),
      DateIssues(Lookup(fd, "preferredDate"), isValidDate),
      StringMin("preferredTime", Lookup(fd, "preferredTime"), 1, "Horário é obrigatório"),
      consent,
      f);
  }

  /** The server reads these keys of an appointment, and no others. */
  const AppointmentKeys: set<string> := {"vehicleBrand", "vehicleModel", "vehicleYear",
    "reasonForSelling", "name", "unit", "preferredDate", "preferredTime", "lgpdConsent"}

  /** What the server answers: `{ message, success?, errors? }`. */
  datatype ActionResult = ActionResult(message: string, success: Option<bool>, errors: Option<FieldErrors>)

  const AppointmentSaved: string := "Agendamento recebido com sucesso!"
  const AppointmentFailed: string := "Falha ao enviar agendamento. Tente novamente."

  /**
   * `scheduleAppointment(prevState, formData)`. `saveThrows` says whether the
   * code inside `try` (logging, the delay, the future store call) threw.
   */
  function ScheduleAppointment(fd: FormData, isValidDate: string -> bool, saveThrows: bool): (r: ActionResult)
    ensures r.success.Some? ==> r.success.value && AppointmentAcceptable(fd, isValidDate) && !saveThrows
    ensures !AppointmentAcceptable(fd, isValidDate) ==>
      r.message == ValidationMessage && r.success.None? && r.errors.Some? && r.errors.value != map[]
    ensures r.errors.Some? ==> r.errors.value == Flatten(AppointmentIssues(fd, isValidDate))
    ensures AppointmentAcceptable(fd, isValidDate) && !saveThrows ==>
      r == ActionResult(AppointmentSaved, Some(true), None)
    ensures AppointmentAcceptable(fd, isValidDate) && saveThrows ==>
      r == ActionResult(AppointmentFailed, None, None)
  {
    AppointmentIssuesIff(fd, isValidDate);
    var issues := AppointmentIssues(fd, isValidDate);
    if issues != [] then
      assert issues[0].field in Flatten(issues);
      ActionResult(ValidationMessage, None, Some(Flatten(issues)))
    else if saveThrows then
      ActionResult(AppointmentFailed, None, None)
    else
      ActionResult(AppointmentSaved, Some(true), None)
  }

  /** Only the keys the schema names matter: the phone, in particular, never does. */
  lemma OnlySchemaKeysMatter(fd1: FormData, fd2: FormData, isValidDate: string -> bool, saveThrows: bool)
    requires forall k :: k in AppointmentKeys ==> Lookup(fd1, k) == Lookup(fd2, k)
    ensures ScheduleAppointment(fd1, isValidDate, saveThrows) == ScheduleAppointment(fd2, isValidDate, saveThrows)
  {
    assert AppointmentIssues(fd1, isValidDate) == AppointmentIssues(fd2, isValidDate);
  }

  // ----- B2B lead -----

  /** All issues `b2bLeadSchema.safeParse` reports; `isEmail` is zod's e-mail check. */
  function B2bIssues(fd: FormData, isEmail: string -> bool): seq<Issue> {
    StringMin("name", Lookup(fd, "name"), 2, "Nome é obrigatório")
    + StringMin("company", Lookup(fd, "company"), 2, "Empresa é obrigatória")
    + EmailIssues(Lookup(fd, "email"), isEmail)
    + StringMin("phone", Lookup(fd, "phone"), 10, "Telefone é obrigatório")
  }

  /** `z.string().email("E-mail inválido")` on a form value. */
  function EmailIssues(raw: Option<string>, isEmail: string -> bool): (issues: seq<Issue>)
    ensures issues == [] <==> raw.Some? && isEmail(raw.value)
    ensures forall i :: 0 <= i < |issues| ==> issues[i].field == "email"
  {
    if raw.None? then [Issue("email", NullMessage)]
    else if !isEmail(raw.value) then [Issue("email", "E-mail inválido")]
    else []
  }

  /** What `b2bLeadSchema` accepts, field by field. */
  predicate B2bAcceptable(fd: FormData, isEmail: string -> bool) {
    && HasMin(Lookup(fd, "name"), 2)
    && HasMin(Lookup(fd, "company"), 2)
    && Lookup(fd, "email").Some? && isEmail(Lookup(fd, "email").value)
    && HasMin(Lookup(fd, "phone"), 10)
  }

  lemma B2bIssuesIff(fd: FormData, isEmail: string -> bool)
    ensures B2bIssues(fd, isEmail) == [] <==> B2bAcceptable(fd, isEmail)
  {
    var name := StringMin("name", Lookup(fd, "name"), 2, "Nome é obrigatório");
    var company := StringMin("company", Lookup(fd, "company"), 2, "Empresa é obrigatória");
    var email := EmailIssues(Lookup(fd, "email"), isEmail);
    var phone := StringMin("phone", Lookup(fd, "phone"), 10, "Telefone é obrigatório");
    assert |B2bIssues(fd, isEmail)| == |name| + |company| + |email| + |phone|;
  }

  const LeadSaved: string := "Contato recebido! Entraremos em contato em breve."
  const LeadFailed: string := "Falha ao enviar contato. Tente novamente."

  /** `submitB2bLead(prevState, formData)`. */
  function SubmitB2bLead(fd: FormData, isEmail: string -> bool, saveThrows: bool): (r: ActionResult)
    ensures r.success.Some? ==> r.success.value && B2bAcceptable(fd, isEmail) && !saveThrows
    ensures !B2bAcceptable(fd, isEmail) ==>
      r.message == ValidationMessage && r.success.None? && r.errors.Some? && r.errors.value != map[]
    ensures r.errors.Some? ==> r.errors.value == Flatten(B2bIssues(fd, isEmail))
    ensures B2bAcceptable(fd, isEmail) && !saveThrows ==>
      r == ActionResult(LeadSaved, Some(true), None)
    ensures B2bAcceptable(fd, isEmail) && saveThrows ==>
      r == ActionResult(LeadFailed, None, None)
  {
    B2bIssuesIff(fd, isEmail);
    var issues := B2bIssues(fd, isEmail);
    if issues != [] then
      assert issues[0].field in Flatten(issues);
      ActionResult(ValidationMessage, None, Some(Flatten(issues)))
    else if saveThrows then
      ActionResult(LeadFailed, None, None)
    else
      ActionResult(LeadSaved, Some(true), None)
  }
}

=== FILE: appointment_form.dfy ===
/**
 * The multi-step appointment form (src/components/forms/appointment-form.tsx).
 *
 * The component's state is a class. Each `useEffect` body is one method
 * (BrandsEffect, ModelsEffect, YearsEffect) that issues at most one fetch
 * and returns it; a fetch completes later through Complete. A user event
 * (choosing a vehicle type, brand, model or year) sets the state and then
 * runs, in declaration order, the effects whose dependencies changed, each
 * with the values of the render that scheduled it. The fetch completions
 * are applied whenever they arrive: this form has no stale-result guard.
 */
module Appointment {
  import opened Common
  import opened Fipe
  import Actions
  import SiteData

  /** Which list `fipeLoading` says is being fetched ('brands', 'models', 'years'). */
  datatype Level = Brands | Models | Years

  /** A fetch the form issued: which list it fills and the URL it asks for. */
  datatype Request = Request(level: Level, url: string)

  /** How a fetch ends, as the form sees it: a list, or a thrown error. */
  datatype Fetched = Loaded(items: seq<FipeItem>) | FetchFailed

  /** The vehicle type select's options. */
  const VehicleTypes: seq<FipeItem> := [
    FipeItem("Carro", "carros"), FipeItem("Moto", "motos"), FipeItem("Caminhão", "caminhoes")
  ]

  predicate IsVehicleTypeCode(t: string) {
    exists i :: 0 <= i < |VehicleTypes| && VehicleTypes[i].codigo == t
  }

  /** The react-hook-form values; `preferredDate` is a day number, absent until picked. */
  datatype ContactValues = ContactValues(
    name: string, phone: string, unit: string, preferredDate: Option<int>,
    preferredTime: string, lgpdConsent: bool)

  const DefaultValues: ContactValues := ContactValues("", "", "", None, "", false)

  // ----- formSchema (the client-side zod schema) -----

  /** `trigger(["name", "phone", "unit"])`: the fields step 2 owns (lengths in UTF-16 units, as zod counts). */
  predicate StepTwoValid(v: ContactValues) {
    Utf16Length(v.name) >= 2 && Utf16Length(v.phone) >= 15 && Utf16Length(v.unit) >= 1
  }

  /** `isValid`: the whole formSchema, which the submit button waits for. */
  predicate ClientSchemaValid(v: ContactValues) {
    StepTwoValid(v) && v.preferredDate.Some? && Utf16Length(v.preferredTime) >= 1 && v.lgpdConsent
  }

  /** The step-2 gate looks at name, phone and unit only: what step 3 holds never changes it. */
  lemma StepTwoIgnoresStepThree(v: ContactValues, date: Option<int>, time: string, consent: bool)
    ensures StepTwoValid(v) <==> StepTwoValid(v.(preferredDate := date, preferredTime := time, lgpdConsent := consent))
    ensures StepTwoValid(v) ==> v.name != "" && v.phone != "" && v.unit != ""
  {
  }

  /** The calendar's `disabled`: a day strictly before the start of `today`. */
  predicate DateDisabled(day: int, today: int) {
    day < today
  }

  /** renderSelect's `items.find(item => item.codigo === code) || null`. */
  function FindByCode(items: seq<FipeItem>, code: string): (r: Option<FipeItem>)
    ensures r.None? <==> forall i :: 0 <= i < |items| ==> items[i].codigo != code
    ensures r.Some? ==> exists i :: (0 <= i < |items| && items[i] == r.value && r.value.codigo == code
                                     && forall j :: 0 <= j < i ==> items[j].codigo != code)
  {
    var hasCode := (x: FipeItem) => x.codigo == code;
    var r := FindFirst(items, hasCode);
    if r.Some? then
      ghost var i :| FirstMatchAt(items, hasCode, i) && items[i] == r.value;
      r
    else r
  }

  // ----- the fetches each effect issues -----

  /** The models effect fetches only when its render saw a brand. */
  function ModelsFetch(vehicleType: string, brand: Option<FipeItem>): (rs: seq<Request>)
    ensures |rs| <= 1 && (rs != [] <==> brand.Some?)
    ensures forall i :: 0 <= i < |rs| ==> rs[i].level == Models
    ensures rs != [] && vehicleType != "" && brand.value.codigo != "" ==>
      ModelsUrl(Some(vehicleType), Some(brand.value.codigo)) == Some(rs[0].url)
  {
    if brand.Some? then [Request(Models, ModelsPath(vehicleType, brand.value.codigo))] else []
  }

  /**
   * The years effect fetches only when its render saw a model; without a
   * brand, `selectedBrand!.codigo` throws inside `try` before any fetch.
   */
  function YearsFetch(vehicleType: string, brand: Option<FipeItem>, model: Option<FipeItem>): (rs: seq<Request>)
    ensures |rs| <= 1 && (rs != [] <==> brand.Some? && model.Some?)
    ensures forall i :: 0 <= i < |rs| ==> rs[i].level == Years
    ensures rs != [] && vehicleType != "" && brand.value.codigo != "" && model.value.codigo != "" ==>
      YearsUrl(Some(vehicleType), Some(brand.value.codigo), Some(model.value.codigo)) == Some(rs[0].url)
  {
    if brand.Some? && model.Some?
    then [Request(Years, YearsPath(vehicleType, brand.value.codigo, model.value.codigo))]
    else []
  }

  const BrandsError: string := "Erro ao carregar marcas."
  const ModelsError: string := "Erro ao carregar modelos."
  const YearsError: string := "Erro ao carregar anos."

  function LevelError(level: Level): string {
    match level
    case Brands => BrandsError
    case Models => ModelsError
    case Years => YearsError
  }

  // ----- the payload onSubmit builds -----

  /** A JavaScript value of `finalData`, as far as onSubmit distinguishes them. */
  datatype JsValue = JsString(s: string) | JsBool(b: bool) | JsDate(day: int) | JsUndefined

  /** `selectedX?.nome || ''`. */
  function NameOrEmpty(item: Option<FipeItem>): (name: string)
    ensures item.None? ==> name == ""
    ensures item.Some? ==> name == item.value.nome
  {
    if item.Some? then item.value.nome else ""
  }

  /**
   * `Object.entries({...data, vehicleType, vehicleBrand, vehicleModel, vehicleYear})`:
   * the form values in react-hook-form's key order, then the vehicle display names.
   */
  function FinalData(v: ContactValues, vehicleType: string, brand: Option<FipeItem>,
                     model: Option<FipeItem>, year: Option<FipeItem>): seq<(string, JsValue)>
  {
    [ ("name", JsString(v.name)),
      ("phone", JsString(v.phone)),
      ("unit", JsString(v.unit)),
      ("preferredTime", JsString(v.preferredTime)),
      ("lgpdConsent", JsBool(v.lgpdConsent)),
      ("preferredDate", if v.preferredDate.Some? then JsDate(v.preferredDate.value) else JsUndefined),
      ("vehicleType", JsString(vehicleType)),
      ("vehicleBrand", JsString(NameOrEmpty(brand))),
      ("vehicleModel", JsString(NameOrEmpty(model))),
      ("vehicleYear", JsString(NameOrEmpty(year))) ]
  }

  /** The keys of `finalData`, in order. */
  const PayloadKeys: seq<string> := ["name", "phone", "unit", "preferredTime", "lgpdConsent",
    "preferredDate", "vehicleType", "vehicleBrand", "vehicleModel", "vehicleYear"]

  /** finalData has ten distinct keys, none of them `reasonForSelling`. */
  lemma FinalDataKeys(v: ContactValues, vehicleType: string, brand: Option<FipeItem>,
                      model: Option<FipeItem>, year: Option<FipeItem>)
    ensures var es := FinalData(v, vehicleType, brand, model, year);
      && |es| == |PayloadKeys| == 10
      && (forall i :: 0 <= i < |es| ==> es[i].0 == PayloadKeys[i])
      && (forall i, j :: 0 <= i < |es| && 0 <= j < |es| && i != j ==> es[i].0 != es[j].0)
      && (forall i :: 0 <= i < |es| ==> es[i].0 != "reasonForSelling")
  {
    assert forall i, j :: 0 <= i < j < |PayloadKeys| ==> PayloadKeys[i] != PayloadKeys[j];
  }

  /** What `formData.append` receives for a value: ISO text for a Date, `String(value)` otherwise; nothing for undefined. */
  function Serialized(value: JsValue, toIso: int -> string): (s: Option<string>)
    ensures s.None? <==> value.JsUndefined?
    ensures value.JsString? ==> s == Some(value.s)
    ensures value.JsBool? ==> s == Some(if value.b then "true" else "false")
    ensures value.JsDate? ==> s == Some(toIso(value.day))
  {
    match value
    case JsString(s) => Some(s)
    case JsBool(b) => Some(if b then "true" else "false")
    case JsDate(d) => Some(toIso(d))
    case JsUndefined => None
  }

  function EncodeEntry(e: (string, JsValue), toIso: int -> string): Actions.FormData {
    var s := Serialized(e.1, toIso);
    if s.Some? then [(e.0, s.value)] else []
  }

  /** The FormData after appending `entries` one by one. */
  function EncodeEntries(entries: seq<(string, JsValue)>, toIso: int -> string): Actions.FormData {
    if entries == [] then []
    else EncodeEntries(entries[..|entries| - 1], toIso) + EncodeEntry(entries[|entries| - 1], toIso)
  }

  /** The FormData onSubmit hands to scheduleAppointment. */
  function Payload(v: ContactValues, vehicleType: string, brand: Option<FipeItem>,
                   model: Option<FipeItem>, year: Option<FipeItem>, toIso: int -> string): Actions.FormData
  {
    EncodeEntries(FinalData(v, vehicleType, brand, model, year), toIso)
  }

  /** A key no entry carries is missing from the FormData. */
  lemma {:induction false} EncodedAbsent(es: seq<(string, JsValue)>, key: string, toIso: int -> string)
    requires forall j :: 0 <= j < |es| ==> es[j].0 != key
    ensures Lookup(EncodeEntries(es, toIso), key).None?
  {
    if es != [] {
      var front := es[..|es| - 1];
      EncodedAbsent(front, key, toIso);
      LookupAppend(EncodeEntries(front, toIso), EncodeEntry(es[|es| - 1], toIso), key);
    }
  }

  /** A key exactly one entry carries reads back as that entry's serialized value. */
  lemma {:induction false} EncodedUnique(es: seq<(string, JsValue)>, i: nat, toIso: int -> string)
    requires i < |es|
    requires forall j :: 0 <= j < |es| && j != i ==> es[j].0 != es[i].0
    ensures Lookup(EncodeEntries(es, toIso), es[i].0) == Serialized(es[i].1, toIso)
  {
    var front := es[..|es| - 1];
    var key := es[i].0;
    LookupAppend(EncodeEntries(front, toIso), EncodeEntry(es[|es| - 1], toIso), key);
    if i < |es| - 1 {
      EncodedUnique(front, i, toIso);
      assert Serialized(es[i].1, toIso).Some? ==> Lookup(EncodeEntries(front, toIso), key).Some?;
      if Serialized(es[i].1, toIso).None? {
        assert es[|es| - 1].0 != key;
      }
    } else {
      EncodedAbsent(front, key, toIso);
    }
  }

  /** The ten payload keys are pairwise distinct, and none is `reasonForSelling`. */
  lemma PayloadKeysDistinct()
    ensures forall i, j :: 0 <= i < |PayloadKeys| && 0 <= j < |PayloadKeys| && i != j ==> PayloadKeys[i] != PayloadKeys[j]
    ensures forall i :: 0 <= i < |PayloadKeys| ==> PayloadKeys[i] != "reasonForSelling"
  {
    assert forall i, j :: 0 <= i < j < |PayloadKeys| ==> PayloadKeys[i] != PayloadKeys[j];
  }

  /** Entries keyed by PayloadKeys read back, key by key, as their serialized values. */
  lemma EncodedPayloadKeys(es: seq<(string, JsValue)>, toIso: int -> string)
    requires |es| == |PayloadKeys|
    requires forall i :: 0 <= i < |es| ==> es[i].0 == PayloadKeys[i]
    ensures forall i :: 0 <= i < |es| ==> Lookup(EncodeEntries(es, toIso), PayloadKeys[i]) == Serialized(es[i].1, toIso)
    ensures Lookup(EncodeEntries(es, toIso), "reasonForSelling").None?
  {
    PayloadKeysDistinct();
    forall i | 0 <= i < |es|
      ensures Lookup(EncodeEntries(es, toIso), PayloadKeys[i]) == Serialized(es[i].1, toIso)
    {
      EncodedUnique(es, i, toIso);
    }
    EncodedAbsent(es, "reasonForSelling", toIso);
  }

  /**
   * What the server reads back from the payload: every form value under its
   * own key, consent as the text of a boolean, the vehicle's display names
   * (empty when unset), the date only once picked, and no `reasonForSelling`.
   */
  lemma PayloadFields(v: ContactValues, vehicleType: string, brand: Option<FipeItem>,
                      model: Option<FipeItem>, year: Option<FipeItem>, toIso: int -> string)
    ensures var fd := Payload(v, vehicleType, brand, model, year, toIso);
      && Lookup(fd, "name") == Some(v.name)
      && Lookup(fd, "phone") == Some(v.phone)
      && Lookup(fd, "unit") == Some(v.unit)
      && Lookup(fd, "preferredTime") == Some(v.preferredTime)
      && Lookup(fd, "lgpdConsent") == Some(if v.lgpdConsent then "true" else "false")
      && Lookup(fd, "preferredDate") == (if v.preferredDate.Some? then Some(toIso(v.preferredDate.value)) else None)
      && Lookup(fd, "vehicleType") == Some(vehicleType)
      && Lookup(fd, "vehicleBrand") == Some(NameOrEmpty(brand))
      && Lookup(fd, "vehicleModel") == Some(NameOrEmpty(model))
      && Lookup(fd, "vehicleYear") == Some(NameOrEmpty(year))
      && Lookup(fd, "reasonForSelling") == None
  {
    var es := FinalData(v, vehicleType, brand, model, year);
    FinalDataKeys(v, vehicleType, brand, model, year);
    EncodedUnique(es, 0, toIso);
    EncodedUnique(es, 1, toIso);
    EncodedUnique(es, 2, toIso);
    EncodedUnique(es, 3, toIso);
    EncodedUnique(es, 4, toIso);
    EncodedUnique(es, 5, toIso);
    EncodedUnique(es, 6, toIso);
    EncodedUnique(es, 7, toIso);
    EncodedUnique(es, 8, toIso);
    EncodedUnique(es, 9, toIso);
    EncodedAbsent(es, "reasonForSelling", toIso);
  }

  /**
   * formSchema read off the payload: the client schema holds exactly when
   * the payload carries a name, phone, unit and time of the schema's
   * lengths, a date, and consent as the text "true".
   */
  lemma ClientSchemaPayload(v: ContactValues, vehicleType: string, brand: Option<FipeItem>,
                            model: Option<FipeItem>, year: Option<FipeItem>, toIso: int -> string)
    ensures var fd := Payload(v, vehicleType, brand, model, year, toIso);
      ClientSchemaValid(v) <==>
        && Actions.HasMin(Lookup(fd, "name"), 2)
        && Actions.HasMin(Lookup(fd, "phone"), 15)
        && Actions.HasMin(Lookup(fd, "unit"), 1)
        && Lookup(fd, "preferredDate").Some?
        && Actions.HasMin(Lookup(fd, "preferredTime"), 1)
        && Lookup(fd, "lgpdConsent") == Some("true")
  {
    PayloadFields(v, vehicleType, brand, model, year, toIso);
  }

  /**
   * The component's state. `units` is the prop the page passes (UNITS);
   * `values` is what react-hook-form holds for the contact fields.
   */
  class AppointmentForm {
    const units: seq<SiteData.Unit>
    var step: int
    var vehicleType: string
    var selectedBrand: Option<FipeItem>
    var selectedModel: Option<FipeItem>
    var selectedYear: Option<FipeItem>
    var brands: seq<FipeItem>
    var models: seq<FipeItem>
    var years: seq<FipeItem>
    var fipeLoading: Option<Level>
    var fipeError: Option<string>
    var values: ContactValues

    /** Step 1 is left only with a complete vehicle, and the vehicle fields live on step 1. */
    ghost predicate Valid()
      reads this
    {
      1 <= step <= 3 && (step >= 2 ==> VehicleChosen())
    }

    /** The step-1 gate: type, brand, model and year all set. */
    predicate VehicleChosen()
      reads this
    {
      vehicleType != "" && selectedBrand.Some? && selectedModel.Some? && selectedYear.Some?
    }

    /** The first render: every useState initial value. */
    constructor (units: seq<SiteData.Unit>)
      ensures Valid() && this.units == units
      ensures step == 1 && vehicleType == "carros"
      ensures selectedBrand.None? && selectedModel.None? && selectedYear.None?
      ensures brands == [] && models == [] && years == []
      ensures fipeLoading.None? && fipeError.None? && values == DefaultValues
    {
      this.units := units;
      step := 1;
      vehicleType := "carros";
      selectedBrand, selectedModel, selectedYear := None, None, None;
      brands, models, years := [], [], [];
      fipeLoading, fipeError := None, None;
      values := DefaultValues;
    }

    /** The mount commit: all three effects run; only the brand fetch finds what it needs. */
    method Mount() returns (issued: seq<Request>)
      requires Valid() && step == 1 && selectedBrand.None? && selectedModel.None?
      modifies this
      ensures Valid()
      ensures issued == [Request(Brands, BrandsPath(vehicleType))]
      ensures fipeLoading == Some(Brands) && fipeError.None?
      ensures selectedBrand.None? && selectedModel.None? && selectedYear.None?
      ensures models == [] && years == [] && brands == old(brands)
      ensures step == old(step) && vehicleType == old(vehicleType) && values == old(values)
    {
      issued := BrandsEffect();
      var m := ModelsEffect(None);
      var y := YearsEffect(None, None);
      issued := issued + m + y;
    }

    /** Effect 1 (deps [vehicleType]): reset every descendant, then fetch the brands. */
    method BrandsEffect() returns (issued: seq<Request>)
      requires Valid() && step == 1
      modifies this
      ensures Valid()
      ensures issued == [Request(Brands, BrandsPath(vehicleType))]
      ensures fipeLoading == Some(Brands) && fipeError.None?
      ensures selectedBrand.None? && selectedModel.None? && selectedYear.None?
      ensures models == [] && years == [] && brands == old(brands)
      ensures step == old(step) && vehicleType == old(vehicleType) && values == old(values)
    {
      fipeLoading := Some(Brands);
      fipeError := None;
      selectedBrand, selectedModel, selectedYear := None, None, None;
      models, years := [], [];
      issued := [Request(Brands, BrandsPath(vehicleType))];
    }

    /**
     * Effect 2 (deps [selectedBrand, vehicleType]) for a render that saw
     * `brand`: nothing without a brand; otherwise reset model, year and the
     * year list, then fetch the models.
     */
    method ModelsEffect(brand: Option<FipeItem>) returns (issued: seq<Request>)
      requires Valid() && step == 1
      modifies this
      ensures Valid()
      ensures issued == ModelsFetch(vehicleType, brand)
      ensures brand.None? ==>
        fipeLoading == old(fipeLoading) && fipeError == old(fipeError)
        && selectedModel == old(selectedModel) && selectedYear == old(selectedYear) && years == old(years)
      ensures brand.Some? ==>
        fipeLoading == Some(Models) && fipeError.None?
        && selectedModel.None? && selectedYear.None? && years == []
      ensures selectedBrand == old(selectedBrand) && brands == old(brands) && models == old(models)
      ensures step == old(step) && vehicleType == old(vehicleType) && values == old(values)
    {
      issued := [];
      if brand.Some? {
        fipeLoading := Some(Models);
        fipeError := None;
        selectedModel, selectedYear := None, None;
        years := [];
        issued := [Request(Models, ModelsPath(vehicleType, brand.value.codigo))];
      }
    }

    /**
     * Effect 3 (deps [selectedModel, selectedBrand, vehicleType]) for a render
     * that saw `brand` and `model`: nothing without a model; otherwise reset
     * the year and fetch the years. A missing brand makes the URL throw,
     * which the catch turns into the years error.
     */
    method YearsEffect(brand: Option<FipeItem>, model: Option<FipeItem>) returns (issued: seq<Request>)
      requires Valid() && step == 1
      modifies this
      ensures Valid()
      ensures issued == YearsFetch(vehicleType, brand, model)
      ensures model.None? ==>
        fipeLoading == old(fipeLoading) && fipeError == old(fipeError) && selectedYear == old(selectedYear)
      ensures model.Some? && brand.Some? ==> fipeLoading == Some(Years) && fipeError.None? && selectedYear.None?
      ensures model.Some? && brand.None? ==> fipeLoading.None? && fipeError == Some(YearsError) && selectedYear.None?
      ensures selectedBrand == old(selectedBrand) && selectedModel == old(selectedModel)
      ensures brands == old(brands) && models == old(models) && years == old(years)
      ensures step == old(step) && vehicleType == old(vehicleType) && values == old(values)
    {
      issued := [];
      if model.Some? {
        fipeLoading := Some(Years);
        fipeError := None;
        selectedYear := None;
        if brand.Some? {
          issued := [Request(Years, YearsPath(vehicleType, brand.value.codigo, model.value.codigo))];
        } else {
          fipeError := Some(YearsError);
          fipeLoading := None;
        }
      }
    }

    /**
     * The vehicle type select. A new type runs all three effects with the
     * brand and model the previous render saw: besides the brand fetch, a
     * stale brand or model triggers fetches under the new type.
     */
    method ChangeVehicleType(t: string) returns (issued: seq<Request>)
      requires Valid() && step == 1 && IsVehicleTypeCode(t)
      modifies this
      ensures Valid()
      ensures vehicleType == t && step == old(step) && values == old(values) && brands == old(brands)
      ensures t == old(vehicleType) ==>
        issued == [] && selectedBrand == old(selectedBrand) && selectedModel == old(selectedModel)
        && selectedYear == old(selectedYear) && models == old(models) && years == old(years)
        && fipeLoading == old(fipeLoading) && fipeError == old(fipeError)
      ensures t != old(vehicleType) ==>
        && selectedBrand.None? && selectedModel.None? && selectedYear.None?
        && models == [] && years == []
        && issued == [Request(Brands, BrandsPath(t))] + ModelsFetch(t, old(selectedBrand))
                     + YearsFetch(t, old(selectedBrand), old(selectedModel))
      ensures t != old(vehicleType) ==>
        && fipeLoading == (if old(selectedModel).Some? then (if old(selectedBrand).Some? then Some(Years) else None)
                           else if old(selectedBrand).Some? then Some(Models) else Some(Brands))
        && fipeError == (if old(selectedModel).Some? && old(selectedBrand).None? then Some(YearsError) else None)
    {
      issued := [];
      if t != vehicleType {
        var brand, model := selectedBrand, selectedModel;
        vehicleType := t;
        var b := BrandsEffect();
        var m := ModelsEffect(brand);
        var y := YearsEffect(brand, model);
        issued := b + m + y;
      }
    }

    /**
     * The brand select (disabled while brands load). The code is looked up
     * in `brands`; a new value runs effect 2 with it and effect 3 with the
     * model the previous render saw, which effect 2 then resets.
     */
    method SelectBrand(code: string) returns (issued: seq<Request>)
      requires Valid() && step == 1 && vehicleType != "" && fipeLoading != Some(Brands)
      modifies this
      ensures Valid()
      ensures selectedBrand == FindByCode(brands, code)
      ensures step == old(step) && vehicleType == old(vehicleType) && values == old(values)
      ensures brands == old(brands) && models == old(models)
      ensures selectedBrand == old(selectedBrand) ==>
        issued == [] && selectedModel == old(selectedModel) && selectedYear == old(selectedYear)
        && years == old(years) && fipeLoading == old(fipeLoading) && fipeError == old(fipeError)
      ensures selectedBrand != old(selectedBrand) ==>
        issued == ModelsFetch(vehicleType, selectedBrand)
                  + YearsFetch(vehicleType, selectedBrand, old(selectedModel))
      ensures selectedBrand != old(selectedBrand) && selectedBrand.Some? ==>
        selectedModel.None? && selectedYear.None? && years == []
      ensures selectedBrand != old(selectedBrand) && selectedBrand.None? ==>
        selectedModel == old(selectedModel) && years == old(years)
      ensures selectedBrand != old(selectedBrand) && (selectedBrand.Some? || old(selectedModel).Some?) ==>
        && fipeLoading == (if old(selectedModel).Some? then (if selectedBrand.Some? then Some(Years) else None)
                           else Some(Models))
        && fipeError == (if old(selectedModel).Some? && selectedBrand.None? then Some(YearsError) else None)
      ensures selectedBrand != old(selectedBrand) && selectedBrand.None? && old(selectedModel).Some? ==>
        selectedYear.None?
      ensures selectedBrand != old(selectedBrand) && selectedBrand.None? && old(selectedModel).None? ==>
        fipeLoading == old(fipeLoading) && fipeError == old(fipeError) && selectedYear == old(selectedYear)
      ensures selectedBrand.None? ==> forall i :: 0 <= i < |issued| ==> issued[i].level != Models
    {
      issued := [];
      var b := FindByCode(brands, code);
      if b != selectedBrand {
        var model := selectedModel;
        selectedBrand := b;
        var m := ModelsEffect(b);
        var y := YearsEffect(b, model);
        issued := m + y;
      }
    }

    /** The model select (disabled without a brand or while models load). */
    method SelectModel(code: string) returns (issued: seq<Request>)
      requires Valid() && step == 1 && selectedBrand.Some? && fipeLoading != Some(Models)
      modifies this
      ensures Valid()
      ensures selectedModel == FindByCode(models, code)
      ensures step == old(step) && vehicleType == old(vehicleType) && values == old(values)
      ensures selectedBrand == old(selectedBrand)
      ensures brands == old(brands) && models == old(models) && years == old(years)
      ensures selectedModel == old(selectedModel) ==>
        issued == [] && selectedYear == old(selectedYear)
        && fipeLoading == old(fipeLoading) && fipeError == old(fipeError)
      ensures selectedModel != old(selectedModel) ==>
        issued == YearsFetch(vehicleType, selectedBrand, selectedModel)
      ensures selectedModel != old(selectedModel) && selectedModel.Some? ==>
        selectedYear.None? && fipeLoading == Some(Years) && fipeError.None?
      ensures selectedModel != old(selectedModel) && selectedModel.None? ==>
        selectedYear == old(selectedYear) && fipeLoading == old(fipeLoading) && fipeError == old(fipeError)
    {
      issued := [];
      var m := FindByCode(models, code);
      if m != selectedModel {
        selectedModel := m;
        issued := YearsEffect(selectedBrand, m);
      }
    }

    /** The year select (disabled without a model or while years load); no effect depends on it. */
    method SelectYear(code: string)
      requires Valid() && step == 1 && selectedModel.Some? && fipeLoading != Some(Years)
      modifies this`selectedYear
      ensures Valid()
      ensures selectedYear == FindByCode(years, code)
    {
      selectedYear := FindByCode(years, code);
    }

    /**
     * A fetch of `level` ends: a list replaces that level's list, a failure
     * sets that level's error; either way loading ends. Nothing checks that
     * the fetch is still the current one.
     */
    method Complete(level: Level, result: Fetched)
      requires Valid()
      modifies this
      ensures Valid()
      ensures fipeLoading.None?
      ensures result.FetchFailed? ==>
        fipeError == Some(LevelError(level))
        && brands == old(brands) && models == old(models) && years == old(years)
      ensures result.Loaded? ==>
        fipeError == old(fipeError)
        && brands == (if level == Brands then result.items else old(brands))
        && models == (if level == Models then result.items else old(models))
        && years == (if level == Years then result.items else old(years))
      ensures step == old(step) && vehicleType == old(vehicleType) && values == old(values)
      ensures selectedBrand == old(selectedBrand) && selectedModel == old(selectedModel)
      ensures selectedYear == old(selectedYear)
    {
      if result.FetchFailed? {
        fipeError := Some(LevelError(level));
      } else {
        match level
        case Brands => brands := result.items;
        case Models => models := result.items;
        case Years => years := result.items;
      }
      fipeLoading := None;
    }

    /** The gate `nextStep` applies on the current step. */
    predicate CanAdvance()
      reads this
    {
      if step == 1 then VehicleChosen()
      else if step == 2 then StepTwoValid(values)
      else false
    }

    /** nextStep: advance one step when the current step's fields validate. */
    method NextStep()
      requires Valid()
      modifies this`step
      ensures Valid()
      ensures step == if old(CanAdvance()) then old(step) + 1 else old(step)
    {
      if CanAdvance() {
        step := step + 1;
      }
    }

    /** prevStep, offered only when step > 1; no value is lost. */
    method PrevStep()
      requires Valid() && step > 1
      modifies this`step
      ensures Valid()
      ensures step == old(step) - 1
    {
      step := step - 1;
    }

    /** Step 2: the name input. */
    method EnterName(name: string)
      requires Valid() && step == 2
      modifies this`values
      ensures values == old(values).(name := name)
    {
      values := values.(name := name);
    }

    /** Step 2: the masked phone input; the mask is reduced to the text it produces. */
    method EnterPhone(phone: string)
      requires Valid() && step == 2
      modifies this`values
      ensures values == old(values).(phone := phone)
    {
      values := values.(phone := phone);
    }

    /** Step 2: the unit select, whose options are the ids of `units`. */
    method ChooseUnit(id: string)
      requires Valid() && step == 2
      requires exists i :: 0 <= i < |units| && units[i].id == id
      modifies this`values
      ensures values == old(values).(unit := id)
    {
      values := values.(unit := id);
    }

    /**
     * Step 3: a click on calendar day `day`. Days before `today` are disabled
     * and ignore the click; clicking the selected day again clears it.
     */
    method PickDate(day: int, today: int)
      requires Valid() && step == 3
      modifies this`values
      ensures DateDisabled(day, today) ==> values == old(values)
      ensures !DateDisabled(day, today) ==>
        values == old(values).(preferredDate := if old(values).preferredDate == Some(day) then None else Some(day))
    {
      if !DateDisabled(day, today) {
        var picked := if values.preferredDate == Some(day) then None else Some(day);
        values := values.(preferredDate := picked);
      }
    }

    /** Step 3: the time select, whose options are TIME_SLOTS. */
    method ChooseTime(slot: string)
      requires Valid() && step == 3
      requires slot in SiteData.TimeSlots
      modifies this`values
      ensures values == old(values).(preferredTime := slot)
    {
      values := values.(preferredTime := slot);
    }

    /** Step 3: the consent checkbox. */
    method SetConsent(checked: bool)
      requires Valid() && step == 3
      modifies this`values
      ensures values == old(values).(lgpdConsent := checked)
    {
      values := values.(lgpdConsent := checked);
    }

    /**
     * onSubmit: append each entry of `finalData` to a fresh FormData, in
     * order. `toIso` stands for `Date.prototype.toISOString`.
     */
    method Submit(toIso: int -> string) returns (fd: Actions.FormData)
      ensures fd == Payload(values, vehicleType, selectedBrand, selectedModel, selectedYear, toIso)
    {
      var entries := FinalData(values, vehicleType, selectedBrand, selectedModel, selectedYear);
      fd := [];
      for i := 0 to |entries|
        invariant fd == EncodeEntries(entries[..i], toIso)
      {
        assert entries[..i + 1][..i] == entries[..i];
        var value := entries[i].1;
        if value.JsDate? {
          fd := fd + [(entries[i].0, toIso(value.day))];
        } else if !value.JsUndefined? {
          fd := fd + [(entries[i].0, Serialized(value, toIso).value)];
        }
      }
      assert entries[..|entries|] == entries;
    }
  }
}

=== FILE: common.dfy ===
/** Small shared vocabulary: JavaScript's `null`/`undefined` as an Option. */
module Common {

  /** A value that may be absent (`null` or `undefined` in the source). */
  datatype Option<+T> = None | Some(value: T)

  /** JavaScript truthiness of an optional string: present and not empty. */
  predicate Truthy(s: Option<string>) {
    s.Some? && s.value != ""
  }

  /**
   * The first value stored under `key` in a list of key/value pairs, or
   * null: what `FormData.get` and `URLSearchParams.get` return.
   */
  function Lookup(pairs: seq<(string, string)>, key: string): (v: Option<string>)
    ensures v.Some? ==> (key, v.value) in pairs
    ensures v.None? <==> forall i :: 0 <= i < |pairs| ==> pairs[i].0 != key
  {
    if pairs == [] then None
    else if pairs[0].0 == key then Some(pairs[0].1)
    else Lookup(pairs[1..], key)
  }

  /** Looking a key up in `a + b` finds it in `a` first. */
  lemma {:induction false} LookupAppend(a: seq<(string, string)>, b: seq<(string, string)>, key: string)
    ensures Lookup(a + b, key) == if Lookup(a, key).Some? then Lookup(a, key) else Lookup(b, key)
  {
    if a != [] {
      assert (a + b)[1..] == a[1..] + b;
      LookupAppend(a[1..], b, key);
    } else {
      assert a + b == b;
    }
  }

  /** The value at index `i` is what lookup finds when no earlier pair has its key. */
  lemma {:induction false} LookupAt(pairs: seq<(string, string)>, i: nat)
    requires i < |pairs|
    requires forall j :: 0 <= j < i ==> pairs[j].0 != pairs[i].0
    ensures Lookup(pairs, pairs[i].0) == Some(pairs[i].1)
  {
    if i > 0 {
      LookupAt(pairs[1..], i - 1);
    }
  }

  /** `xs[i]` is the first element of `xs` that satisfies `p`. */
  predicate FirstMatchAt<T>(xs: seq<T>, p: T -> bool, i: int) {
    0 <= i < |xs| && p(xs[i]) && forall j :: 0 <= j < i ==> !p(xs[j])
  }

  /** `Array.prototype.find`: the first element satisfying `p`, or undefined. */
  function FindFirst<T>(xs: seq<T>, p: T -> bool): (r: Option<T>)
    ensures r.None? <==> forall i :: 0 <= i < |xs| ==> !p(xs[i])
    ensures r.Some? ==> exists i :: FirstMatchAt(xs, p, i) && xs[i] == r.value
  {
    if xs == [] then None
    else if p(xs[0]) then
      assert FirstMatchAt(xs, p, 0);
      Some(xs[0])
    else
      var r := FindFirst(xs[1..], p);
      if r.Some? then
        ghost var i :| FirstMatchAt(xs[1..], p, i) && xs[1..][i] == r.value;
        assert FirstMatchAt(xs, p, i + 1);
        r
      else r
  }

  /**
   * A JavaScript string's `length`: UTF-16 code units, so a character
   * beyond U+FFFF counts twice. zod's `.min(n)` compares against it.
   */
  function Utf16Length(s: string): (n: nat)
    ensures |s| <= n <= 2 * |s|
    ensures (forall i :: 0 <= i < |s| ==> s[i] as int < 0x1_0000) ==> n == |s|
  {
    if s == [] then 0
    else Utf16Length(s[..|s| - 1]) + (if s[|s| - 1] as int < 0x1_0000 then 1 else 2)
  }

  /** One character is one UTF-16 unit, or two (a surrogate pair) beyond U+FFFF. */
  lemma Utf16LengthChar(c: char)
    ensures Utf16Length([c]) == if c as int < 0x1_0000 then 1 else 2
  {
    assert [c][..0] == [];
  }

  /** The length of a concatenation is the sum of the lengths. */
  lemma {:induction false} Utf16LengthAppend(a: string, b: string)
    ensures Utf16Length(a + b) == Utf16Length(a) + Utf16Length(b)
  {
    if b == [] {
      assert a + b == a;
    } else {
      var front := b[..|b| - 1];
      assert (a + b)[..|a + b| - 1] == a + front;
      assert (a + b)[|a + b| - 1] == b[|b| - 1];
      Utf16LengthAppend(a, front);
    }
  }
}

=== FILE: fipe.dfy ===
/**
 * The FIPE lookup hooks (src/hooks/use-fipe.ts): the URL builders of
 * useFipeBrands / useFipeModels / useFipeYears, the normalisation of the
 * JSON they receive, and the `useFipe` state cell whose `isMounted` flag
 * drops results of a superseded request. The flag is modelled as a
 * generation tag: every run of the effect gets the next generation, and
 * only a completion carrying the current generation is applied.
 */
module Fipe {
  import opened Common

  /** One entry of a FIPE list: a display name and an opaque code. */
  datatype FipeItem = FipeItem(nome: string, codigo: string)

  const ApiBaseUrl: string := "https://parallelum.com.br/fipe/api/v1"

  /** `${base}/${vehicleType}/marcas` */
  function BrandsPath(vehicleType: string): string {
    ApiBaseUrl + "/" + vehicleType + "/marcas"
  }

  /** `${base}/${vehicleType}/marcas/${brandCode}/modelos` */
  function ModelsPath(vehicleType: string, brandCode: string): string {
    BrandsPath(vehicleType) + "/" + brandCode + "/modelos"
  }

  /** `${base}/${vehicleType}/marcas/${brandCode}/modelos/${modelCode}/anos` */
  function YearsPath(vehicleType: string, brandCode: string, modelCode: string): string {
    ModelsPath(vehicleType, brandCode) + "/" + modelCode + "/anos"
  }

  /** The URL useFipeBrands passes to useFipe: null unless a vehicle type is given. */
  function BrandsUrl(vehicleType: Option<string>): Option<string> {
    if Truthy(vehicleType) then Some(BrandsPath(vehicleType.value)) else None
  }

  /** The URL useFipeModels passes to useFipe: null unless type and brand are given. */
  function ModelsUrl(vehicleType: Option<string>, brandCode: Option<string>): Option<string> {
    if Truthy(vehicleType) && Truthy(brandCode)
    then Some(ModelsPath(vehicleType.value, brandCode.value))
    else None
  }

  /** The URL useFipeYears passes to useFipe: null unless type, brand and model are given. */
  function YearsUrl(vehicleType: Option<string>, brandCode: Option<string>, modelCode: Option<string>): Option<string> {
    if Truthy(vehicleType) && Truthy(brandCode) && Truthy(modelCode)
    then Some(YearsPath(vehicleType.value, brandCode.value, modelCode.value))
    else None
  }

  /** Each builder yields a URL exactly when every parent code it needs is present. */
  lemma UrlPresentIffParents(t: Option<string>, b: Option<string>, m: Option<string>)
    ensures BrandsUrl(t).Some? <==> Truthy(t)
    ensures ModelsUrl(t, b).Some? <==> Truthy(t) && Truthy(b)
    ensures YearsUrl(t, b, m).Some? <==> Truthy(t) && Truthy(b) && Truthy(m)
  {
  }

  /**
   * Dependency order: a years URL exists only when the models URL for the
   * same type and brand exists and extends it, and likewise models over brands.
   */
  lemma UrlChain(t: Option<string>, b: Option<string>, m: Option<string>)
    ensures YearsUrl(t, b, m).Some? ==>
      ModelsUrl(t, b).Some? && ModelsUrl(t, b).value <= YearsUrl(t, b, m).value
    ensures ModelsUrl(t, b).Some? ==>
      BrandsUrl(t).Some? && BrandsUrl(t).value <= ModelsUrl(t, b).value
    ensures BrandsUrl(t).Some? ==> ApiBaseUrl + "/" <= BrandsUrl(t).value
  {
    if YearsUrl(t, b, m).Some? {
      var mp := ModelsPath(t.value, b.value);
      assert YearsUrl(t, b, m).value == mp + ("/" + m.value + "/anos");
    }
    if ModelsUrl(t, b).Some? {
      var bp := BrandsPath(t.value);
      assert ModelsUrl(t, b).value == bp + ("/" + b.value + "/modelos");
    }
    if BrandsUrl(t).Some? {
      assert BrandsUrl(t).value == (ApiBaseUrl + "/") + (t.value + "/marcas");
    }
  }

  /** Different vehicle types are looked up at different brand URLs. */
  lemma {:induction false} BrandsPathInjective(t1: string, t2: string)
    requires BrandsPath(t1) == BrandsPath(t2)
    ensures t1 == t2
  {
    var p := ApiBaseUrl + "/";
    var s := "/marcas";
    assert BrandsPath(t1) == p + t1 + s;
    assert BrandsPath(t2) == p + t2 + s;
    assert |t1| == |t2|;
    forall i | 0 <= i < |t1| ensures t1[i] == t2[i] {
      assert BrandsPath(t1)[|p| + i] == t1[i];
      assert BrandsPath(t2)[|p| + i] == t2[i];
    }
  }

  /**
   * The JSON a FIPE endpoint answers with, as far as the hooks look at it:
   * an array of items, an object (only its `modelos` member matters), or
   * any other value.
   */
  datatype Json = JArray(items: seq<FipeItem>) | JObject(modelos: Option<Json>) | JOther

  /** `Array.isArray(data) ? data : []` (useFipeBrands and useFipeYears). */
  function ItemsOrEmpty(data: Option<Json>): (items: seq<FipeItem>)
    ensures items == [] || data == Some(JArray(items))
    ensures (data.Some? && data.value.JArray?) ==> items == data.value.items
  {
    match data
    case Some(JArray(xs)) => xs
    case _ => []
  }

  /** `data?.modelos && Array.isArray(data.modelos) ? data.modelos : []` (useFipeModels). */
  function ModelosOrEmpty(data: Option<Json>): (items: seq<FipeItem>)
    ensures items == [] || data == Some(JObject(Some(JArray(items))))
    ensures data.Some? && data.value.JObject? && data.value.modelos.Some? && data.value.modelos.value.JArray? ==>
      items == data.value.modelos.value.items
    ensures data.Some? && data.value.JArray? ==> items == []
  {
    match data
    case Some(JObject(Some(JArray(xs)))) => xs
    case _ => []
  }

  /** How one fetch of useFipe ends. */
  datatype Outcome =
    | Received(json: Json)               // response.ok and the body parsed
    | HttpFailure(statusText: string)    // !response.ok: the hook throws its own Error
    | Thrown(message: Option<string>)    // fetch or json() threw; message is err.message

  const HttpFailurePrefix: string := "Falha ao buscar dados da FIPE: "
  const DefaultFetchError: string := "Ocorreu um erro ao buscar na API FIPE."

  /** The error string the catch block stores: `err.message || default`. */
  function ErrorText(outcome: Outcome): (msg: string)
    requires !outcome.Received?
    ensures msg != ""
    ensures outcome.HttpFailure? ==> msg == HttpFailurePrefix + outcome.statusText
    ensures outcome.Thrown? && Truthy(outcome.message) ==> msg == outcome.message.value
    ensures outcome.Thrown? && !Truthy(outcome.message) ==> msg == DefaultFetchError
  {
    match outcome
    case HttpFailure(st) => HttpFailurePrefix + st
    case Thrown(m) => if Truthy(m) then m.value else DefaultFetchError
  }

  /**
   * The `useFipe` cell: `data`, `loading` and `error` as the hook keeps
   * them, the URL its effect last ran for, and the generation of that run.
   * `pending` holds the generations whose fetch has not completed yet.
   */
  class FipeCell {
    var url: Option<string>
    var data: Option<Json>
    var loading: bool
    var error: Option<string>
    var generation: nat
    ghost var pending: set<nat>

    /**
     * No fetch is pending from the future; while a URL is set and the
     * spinner is on, the current run's fetch is still pending (so its
     * completion will turn the spinner off); with no URL, the current run
     * started no fetch and there is no data.
     */
    ghost predicate Valid()
      reads this
    {
      && (forall t :: t in pending ==> t <= generation)
      && (url.Some? && loading ==> generation in pending)
      && (url.None? ==> generation !in pending && data.None?)
    }

    /** The hook's first render: useState initial values, then the mount effect. */
    constructor (initialUrl: Option<string>)
      ensures Valid()
      ensures url == initialUrl && generation == 0 && data.None? && error.None?
      ensures loading == initialUrl.Some?
      ensures pending == if initialUrl.Some? then {0} else {}
    {
      url := initialUrl;
      data := None;
      error := None;
      generation := 0;
      if initialUrl.Some? {
        loading := true;
        pending := {0};
      } else {
        loading := false;
        pending := {};
      }
    }

    /**
     * A render with URL `u`. When it differs from the last one, the old
     * run's cleanup clears its `isMounted` (the generation moves on) and the
     * effect runs again: a null URL sets data to null and fetches nothing;
     * otherwise the fetch starts with loading on and the error cleared.
     */
    method ChangeUrl(u: Option<string>)
      requires Valid()
      modifies this
      ensures Valid()
      ensures url == u
      ensures u == old(url) ==> unchanged(this)
      ensures u != old(url) ==> generation == old(generation) + 1
      ensures u != old(url) && u.None? ==>
        data.None? && loading == old(loading) && error == old(error) && pending == old(pending)
      ensures u != old(url) && u.Some? ==>
        data == old(data) && loading && error.None? && pending == old(pending) + {generation}
      ensures forall t :: t in old(pending) && u != old(url) ==> t < generation
    {
      if u != url {
        generation := generation + 1;
        url := u;
        if u.None? {
          data := None;
        } else {
          loading := true;
          error := None;
          pending := pending + {generation};
        }
      }
    }

    /**
     * The fetch of generation `tag` ends with `outcome`. If a later run has
     * replaced it (`isMounted` is false) nothing changes; otherwise a result
     * is stored as data, a failure as error, and loading ends.
     */
    method Complete(tag: nat, outcome: Outcome)
      requires Valid() && tag in pending
      modifies this
      ensures Valid()
      ensures pending == old(pending) - {tag}
      ensures url == old(url) && generation == old(generation)
      ensures tag != generation ==>
        data == old(data) && loading == old(loading) && error == old(error)
      ensures tag == generation ==> !loading
      ensures tag == generation && outcome.Received? ==>
        data == Some(outcome.json) && error == old(error)
      ensures tag == generation && !outcome.Received? ==>
        data == old(data) && error == Some(ErrorText(outcome))
    {
      pending := pending - {tag};
      if tag == generation {
        if outcome.Received? {
          data := Some(outcome.json);
        } else {
          error := Some(ErrorText(outcome));
        }
        loading := false;
      }
    }
  }
}

=== FILE: hero_form.dfy ===
/**
 * The hero quick-search form (src/components/forms/hero-appointment-form.tsx):
 * three cascading dropdowns (brand, model, year of a car) fed by the three
 * FIPE hooks, a case-insensitive search inside the brand and model
 * dropdowns, and a submit that hands the chosen codes and names to the
 * scheduling page as query parameters.
 *
 * The vehicle type is fixed to "carros". A selection is an item (code and
 * name) or null. Each render's hook effects run before the form's own
 * reset effects, so choosing a new brand first points the years hook at the
 * new brand with the old model, and only the next render clears it.
 */
module Hero {
  import opened Common
  import opened Fipe

  const VehicleType: string := "carros"

  // ---------------------------------------------------------------------
  // Search filter: item.nome.toLowerCase().includes(searchTerm.toLowerCase())
  // ---------------------------------------------------------------------

  /** Upper-case letters this model lowers: ASCII A-Z and Latin-1 U+00C0..U+00DE except U+00D7. */
  predicate IsUpper(c: char) {
    ('A' <= c <= 'Z') || ('\U{00C0}' <= c <= '\U{00DE}' && c != '\U{00D7}')
  }

  /** Lower-case of one character (the letters above move up by 32). */
  function LowerChar(c: char): (l: char)
    ensures !IsUpper(l)
    ensures IsUpper(c) ==> l as int == c as int + 32
    ensures !IsUpper(c) ==> l == c
  {
    if IsUpper(c) then (c as int + 32) as char else c
  }

  /** `String.prototype.toLowerCase`, character by character. */
  function ToLower(s: string): (r: string)
    ensures |r| == |s|
    ensures forall i :: 0 <= i < |s| ==> r[i] == LowerChar(s[i])
  {
    seq(|s|, i requires 0 <= i < |s| => LowerChar(s[i]))
  }

  /** Lower-casing twice is lower-casing once. */
  lemma ToLowerIdempotent(s: string)
    ensures ToLower(ToLower(s)) == ToLower(s)
  {
  }

  /** Two strings with the same lower-case form are the same search, whichever is typed. */
  lemma MatchesIgnoresCase(item: FipeItem, term: string, other: string)
    requires ToLower(term) == ToLower(other)
    ensures Matches(item, term) == Matches(item, other)
    ensures Matches(item, term) == Matches(item, ToLower(term))
    ensures Matches(item, term) == Matches(item.(nome := ToLower(item.nome)), term)
  {
    ToLowerIdempotent(term);
    ToLowerIdempotent(item.nome);
  }

  /** `needle` occurs in `hay` starting at index `i`. */
  predicate OccursAt(hay: string, needle: string, i: int) {
    0 <= i && i + |needle| <= |hay| && hay[i..i + |needle|] == needle
  }

  /** `String.prototype.includes`: `needle` occurs somewhere in `hay`. */
  predicate Contains(hay: string, needle: string) {
    exists i | 0 <= i <= |hay| :: OccursAt(hay, needle, i)
  }

  /** The dropdown's filter test for one item. */
  predicate Matches(item: FipeItem, term: string) {
    Contains(ToLower(item.nome), ToLower(term))
  }

  /** `items.filter(...)`: the items whose name contains the term, ignoring case. */
  function FilteredItems(items: seq<FipeItem>, term: string): (r: seq<FipeItem>)
    ensures |r| <= |items|
    ensures forall x :: x in r <==> x in items && Matches(x, term)
  {
    if items == [] then []
    else (if Matches(items[0], term) then [items[0]] else []) + FilteredItems(items[1..], term)
  }

  /** Every name contains the empty string. */
  lemma EmptyTermMatches(item: FipeItem)
    ensures Matches(item, "")
  {
    var hay, needle := ToLower(item.nome), ToLower("");
    assert OccursAt(hay, needle, 0);
  }

  /** With an empty search box the dropdown lists every item, in order. */
  lemma {:induction false} EmptyTermKeepsAll(items: seq<FipeItem>)
    ensures FilteredItems(items, "") == items
  {
    if items != [] {
      EmptyTermMatches(items[0]);
      EmptyTermKeepsAll(items[1..]);
    }
  }

  /** Filtering keeps the API's order: it distributes over concatenation. */
  lemma {:induction false} FilterAppend(a: seq<FipeItem>, b: seq<FipeItem>, term: string)
    ensures FilteredItems(a + b, term) == FilteredItems(a, term) + FilteredItems(b, term)
  {
    if a == [] {
      assert a + b == b;
    } else {
      assert (a + b)[0] == a[0];
      assert (a + b)[1..] == a[1..] + b;
      FilterAppend(a[1..], b, term);
    }
  }

  /** Searching again for the same term changes nothing. */
  lemma {:induction false} FilterIdempotent(items: seq<FipeItem>, term: string)
    ensures FilteredItems(FilteredItems(items, term), term) == FilteredItems(items, term)
  {
    if items != [] {
      var head := if Matches(items[0], term) then [items[0]] else [];
      FilterAppend(head, FilteredItems(items[1..], term), term);
      FilterIdempotent(items[1..], term);
      if Matches(items[0], term) {
        assert FilteredItems(head, term) == head by {
          assert head[1..] == [];
        }
      }
    }
  }

  // ---------------------------------------------------------------------
  // What an open dropdown shows, and the labels of the three buttons
  // ---------------------------------------------------------------------

  /** The body of an open dropdown. */
  datatype DropdownContent =
    | Spinner                           // "Carregando..."
    | ErrorMessage(text: string)        // the hook's error
    | ItemList(items: seq<FipeItem>)    // clickable items
    | NoResults                         // "Nenhum resultado."

  /**
   * The dropdown body: a spinner while loading, else the error if there is
   * one, else the filtered items, or "Nenhum resultado." when none match.
   */
  function DropdownBody(loading: bool, error: Option<string>, items: seq<FipeItem>, term: string): (c: DropdownContent)
    ensures loading <==> c == Spinner
    ensures c.ErrorMessage? <==> !loading && Truthy(error)
    ensures c.ErrorMessage? ==> c.text == error.value
    ensures c.ItemList? ==> c.items != [] && forall x :: x in c.items <==> x in items && Matches(x, term)
    ensures c == NoResults <==> !loading && !Truthy(error) && forall x :: x in items ==> !Matches(x, term)
  {
    if loading then Spinner
    else if Truthy(error) then ErrorMessage(error.value)
    else
      var shown := FilteredItems(items, term);
      if shown != [] then
        assert shown[0] in shown;
        ItemList(shown)
      else NoResults
  }

  const LoadingLabel: string := "Carregando..."

  /** `getSelectionLabel`: the spinner text while loading, else the chosen name, else the default. */
  function SelectionLabel(item: Option<FipeItem>, defaultLabel: string, loading: bool): (shown: string)
    ensures loading ==> shown == LoadingLabel
    ensures !loading && item.Some? && item.value.nome != "" ==> shown == item.value.nome
    ensures !loading && (item.None? || item.value.nome == "") ==> shown == defaultLabel
  {
    if loading then LoadingLabel
    else if item.Some? && item.value.nome != "" then item.value.nome
    else defaultLabel
  }

  // ---------------------------------------------------------------------
  // Submit: the query string handed to /agendar-avaliacao
  // ---------------------------------------------------------------------

  const QueryKeys: seq<string> := ["brandCode", "brandName", "modelCode", "modelName", "yearCode", "yearName"]

  /**
   * `handleSubmit`: nothing unless brand, model and year are all chosen;
   * otherwise the six query parameters, codes and names of each.
   */
  function SubmitQuery(brand: Option<FipeItem>, model: Option<FipeItem>, year: Option<FipeItem>): (q: Option<seq<(string, string)>>)
    ensures q.Some? <==> brand.Some? && model.Some? && year.Some?
    ensures q.Some? ==> |q.value| == |QueryKeys| && forall i :: 0 <= i < |q.value| ==> q.value[i].0 == QueryKeys[i]
  {
    if brand.None? || model.None? || year.None? then None
    else Some([("brandCode", brand.value.codigo), ("brandName", brand.value.nome),
               ("modelCode", model.value.codigo), ("modelName", model.value.nome),
               ("yearCode", year.value.codigo), ("yearName", year.value.nome)])
  }

  /** Reading the query back with `URLSearchParams.get` recovers every selection. */
  lemma SubmitQueryRoundTrip(brand: FipeItem, model: FipeItem, year: FipeItem)
    ensures var q := SubmitQuery(Some(brand), Some(model), Some(year)).value;
      && Lookup(q, "brandCode") == Some(brand.codigo) && Lookup(q, "brandName") == Some(brand.nome)
      && Lookup(q, "modelCode") == Some(model.codigo) && Lookup(q, "modelName") == Some(model.nome)
      && Lookup(q, "yearCode") == Some(year.codigo) && Lookup(q, "yearName") == Some(year.nome)
  {
    var q := SubmitQuery(Some(brand), Some(model), Some(year)).value;
    forall i | 0 <= i < |q| ensures Lookup(q, q[i].0) == Some(q[i].1) {
      LookupAt(q, i);
    }
    assert q[0] == ("brandCode", brand.codigo) && q[1] == ("brandName", brand.nome);
    assert q[2] == ("modelCode", model.codigo) && q[3] == ("modelName", model.nome);
    assert q[4] == ("yearCode", year.codigo) && q[5] == ("yearName", year.nome);
  }

  // ---------------------------------------------------------------------
  // The form's state
  // ---------------------------------------------------------------------

  /** The three dropdowns, named 'brand', 'model' and 'year' in the source. */
  datatype DropdownName = BrandDropdown | ModelDropdown | YearDropdown

  /** `item?.codigo` */
  function CodeOf(item: Option<FipeItem>): Option<string> {
    if item.Some? then Some(item.value.codigo) else None
  }

  /**
   * The form: its three selections, which dropdown is open, the search text
   * of the open dropdown (a fresh dropdown starts empty), and the three FIPE
   * hook cells.
   */
  class HeroAppointmentForm {
    const brandsCell: FipeCell
    const modelsCell: FipeCell
    const yearsCell: FipeCell
    var selectedBrand: Option<FipeItem>
    var selectedModel: Option<FipeItem>
    var selectedYear: Option<FipeItem>
    var activeDropdown: Option<DropdownName>
    var searchTerm: string

    /**
     * Each hook is pointed at the URL built from the current selections;
     * a year needs a model and a model a brand; the model dropdown opens
     * only with a brand and the year dropdown only with a model; only the
     * brand and model dropdowns have a search box.
     */
    ghost predicate Valid()
      reads this, brandsCell, modelsCell, yearsCell
    {
      && brandsCell != modelsCell && brandsCell != yearsCell && modelsCell != yearsCell
      && brandsCell.Valid() && modelsCell.Valid() && yearsCell.Valid()
      && brandsCell.url == BrandsUrl(Some(VehicleType))
      && modelsCell.url == ModelsUrl(Some(VehicleType), CodeOf(selectedBrand))
      && yearsCell.url == YearsUrl(Some(VehicleType), CodeOf(selectedBrand), CodeOf(selectedModel))
      && (selectedModel.Some? ==> selectedBrand.Some?)
      && (selectedYear.Some? ==> selectedModel.Some?)
      && (activeDropdown == Some(ModelDropdown) ==> selectedBrand.Some?)
      && (activeDropdown == Some(YearDropdown) ==> selectedModel.Some?)
      && (activeDropdown.None? || activeDropdown == Some(YearDropdown) ==> searchTerm == "")
    }

    /** The open brand dropdown's body. */
    function BrandView(): DropdownContent
      reads this, brandsCell
    {
      DropdownBody(brandsCell.loading, brandsCell.error, ItemsOrEmpty(brandsCell.data), searchTerm)
    }

    /** The open model dropdown's body (the list is the response's `modelos`). */
    function ModelView(): DropdownContent
      reads this, modelsCell
    {
      DropdownBody(modelsCell.loading, modelsCell.error, ModelosOrEmpty(modelsCell.data), searchTerm)
    }

    /** The open year dropdown's body. */
    function YearView(): DropdownContent
      reads this, yearsCell
    {
      DropdownBody(yearsCell.loading, yearsCell.error, ItemsOrEmpty(yearsCell.data), searchTerm)
    }

    /** First render and mount: nothing chosen, no dropdown open, the brands fetch under way. */
    constructor ()
      ensures Valid()
      ensures selectedBrand.None? && selectedModel.None? && selectedYear.None?
      ensures activeDropdown.None? && searchTerm == ""
      ensures brandsCell.loading && !modelsCell.loading && !yearsCell.loading
      ensures fresh(brandsCell) && fresh(modelsCell) && fresh(yearsCell)
    {
      brandsCell := new FipeCell(BrandsUrl(Some(VehicleType)));
      modelsCell := new FipeCell(None);
      yearsCell := new FipeCell(None);
      selectedBrand := None;
      selectedModel := None;
      selectedYear := None;
      activeDropdown := None;
      searchTerm := "";
    }

    /**
     * A click on a brand in the open brand dropdown. The model dropdown
     * opens. A different brand clears model and year: in the first render
     * the models hook fetches for the new brand while the years hook sees
     * the new brand with the old model; the reset effect then clears the
     * model, and the years hook's next render drops that fetch. When that
     * intermediate URL was a new one, the years spinner is left on with no
     * fetch pending that could turn it off.
     */
    method SelectBrand(item: FipeItem)
      requires Valid() && activeDropdown == Some(BrandDropdown)
      requires BrandView().ItemList? && item in BrandView().items
      modifies this, modelsCell, yearsCell
      ensures Valid()
      ensures selectedBrand == Some(item) && activeDropdown == Some(ModelDropdown) && searchTerm == ""
      ensures old(selectedBrand) != Some(item) ==> selectedModel.None? && selectedYear.None?
      ensures old(selectedBrand) != Some(item) ==>
        modelsCell.url == ModelsUrl(Some(VehicleType), Some(item.codigo)) && yearsCell.url.None?
        && yearsCell.data.None?
      ensures modelsCell.url != old(modelsCell.url) && modelsCell.url.Some? ==>
        modelsCell.loading && modelsCell.error.None? && modelsCell.pending == old(modelsCell.pending) + {modelsCell.generation}
        && modelsCell.generation !in old(modelsCell.pending)
      ensures old(selectedBrand) == Some(item) ==>
        selectedModel == old(selectedModel) && selectedYear == old(selectedYear)
        && unchanged(modelsCell) && unchanged(yearsCell)
      ensures modelsCell.url == old(modelsCell.url) ==> unchanged(modelsCell)
      ensures modelsCell.url != old(modelsCell.url) && modelsCell.url.None? ==>
        modelsCell.loading == old(modelsCell.loading) && modelsCell.error == old(modelsCell.error)
      ensures old(selectedModel).None? ==> unchanged(yearsCell)
      ensures (old(selectedBrand) != Some(item)
        && YearsUrl(Some(VehicleType), Some(item.codigo), CodeOf(old(selectedModel))).Some?
        && YearsUrl(Some(VehicleType), Some(item.codigo), CodeOf(old(selectedModel))) != old(yearsCell.url)) ==>
        yearsCell.loading && yearsCell.error.None? && yearsCell.generation !in yearsCell.pending
      ensures (old(selectedBrand) == Some(item)
        || YearsUrl(Some(VehicleType), Some(item.codigo), CodeOf(old(selectedModel))).None?
        || YearsUrl(Some(VehicleType), Some(item.codigo), CodeOf(old(selectedModel))) == old(yearsCell.url)) ==>
        yearsCell.loading == old(yearsCell.loading) && yearsCell.error == old(yearsCell.error)
    {
      if Some(item) != selectedBrand {
        SwitchBrand(item);
      } else {
        activeDropdown := Some(ModelDropdown);
        searchTerm := "";
      }
    }

    /** SelectBrand's work for a brand other than the selected one. */
    method SwitchBrand(item: FipeItem)
      requires Valid() && selectedBrand != Some(item)
      modifies this, modelsCell, yearsCell
      ensures Valid()
      ensures selectedBrand == Some(item) && activeDropdown == Some(ModelDropdown) && searchTerm == ""
      ensures selectedModel.None? && selectedYear.None?
      ensures modelsCell.url == ModelsUrl(Some(VehicleType), Some(item.codigo))
      ensures yearsCell.url.None? && yearsCell.data.None?
      ensures modelsCell.url != old(modelsCell.url) && modelsCell.url.Some? ==>
        modelsCell.loading && modelsCell.error.None? && modelsCell.pending == old(modelsCell.pending) + {modelsCell.generation}
        && modelsCell.generation !in old(modelsCell.pending)
      ensures modelsCell.url == old(modelsCell.url) ==> unchanged(modelsCell)
      ensures modelsCell.url != old(modelsCell.url) && modelsCell.url.None? ==>
        modelsCell.loading == old(modelsCell.loading) && modelsCell.error == old(modelsCell.error)
      ensures old(selectedModel).None? ==> unchanged(yearsCell)
      ensures (YearsUrl(Some(VehicleType), Some(item.codigo), CodeOf(old(selectedModel))).Some?
        && YearsUrl(Some(VehicleType), Some(item.codigo), CodeOf(old(selectedModel))) != old(yearsCell.url)) ==>
        yearsCell.loading && yearsCell.error.None? && yearsCell.generation !in yearsCell.pending
      ensures (YearsUrl(Some(VehicleType), Some(item.codigo), CodeOf(old(selectedModel))).None?
        || YearsUrl(Some(VehicleType), Some(item.codigo), CodeOf(old(selectedModel))) == old(yearsCell.url)) ==>
        yearsCell.loading == old(yearsCell.loading) && yearsCell.error == old(yearsCell.error)
    {
      var oldModel := selectedModel;
      selectedBrand := Some(item);
      // hook effects of the first render
      modelsCell.ChangeUrl(ModelsUrl(Some(VehicleType), Some(item.codigo)));
      yearsCell.ChangeUrl(YearsUrl(Some(VehicleType), Some(item.codigo), CodeOf(oldModel)));
      // the reset effect on selectedBrand, then the second render's hook effects
      selectedModel := None;
      selectedYear := None;
      yearsCell.ChangeUrl(YearsUrl(Some(VehicleType), Some(item.codigo), None));
      activeDropdown := Some(ModelDropdown);
      searchTerm := "";
    }

    /**
     * A click on a model in the open model dropdown: the year dropdown
     * opens, a different model clears the year and points the years hook
     * at the new model.
     */
    method SelectModel(item: FipeItem)
      requires Valid() && activeDropdown == Some(ModelDropdown)
      requires ModelView().ItemList? && item in ModelView().items
      modifies this, yearsCell
      ensures Valid()
      ensures selectedModel == Some(item) && activeDropdown == Some(YearDropdown) && searchTerm == ""
      ensures selectedBrand == old(selectedBrand)
      ensures old(selectedModel) != Some(item) ==> selectedYear.None?
      ensures old(selectedModel) == Some(item) ==> selectedYear == old(selectedYear) && unchanged(yearsCell)
      ensures yearsCell.url == YearsUrl(Some(VehicleType), CodeOf(selectedBrand), Some(item.codigo))
      ensures yearsCell.url != old(yearsCell.url) && yearsCell.url.Some? ==>
        yearsCell.loading && yearsCell.error.None? && yearsCell.pending == old(yearsCell.pending) + {yearsCell.generation}
        && yearsCell.generation !in old(yearsCell.pending)
      ensures yearsCell.url == old(yearsCell.url) ==> unchanged(yearsCell)
      ensures yearsCell.url != old(yearsCell.url) && yearsCell.url.None? ==>
        yearsCell.loading == old(yearsCell.loading) && yearsCell.error == old(yearsCell.error)
    {
      if Some(item) != selectedModel {
        selectedModel := Some(item);
        yearsCell.ChangeUrl(YearsUrl(Some(VehicleType), CodeOf(selectedBrand), Some(item.codigo)));
        selectedYear := None;
      }
      activeDropdown := Some(YearDropdown);
      searchTerm := "";
    }

    /** A click on a year in the open year dropdown: it is chosen and the dropdown closes. */
    method SelectYear(item: FipeItem)
      requires Valid() && activeDropdown == Some(YearDropdown)
      requires YearView().ItemList? && item in YearView().items
      modifies this
      ensures Valid()
      ensures selectedYear == Some(item) && activeDropdown.None? && searchTerm == ""
      ensures selectedBrand == old(selectedBrand) && selectedModel == old(selectedModel)
      ensures SubmitQuery(selectedBrand, selectedModel, selectedYear).Some?
    {
      selectedYear := Some(item);
      activeDropdown := None;
      searchTerm := "";
    }

    /**
     * `toggleDropdown`: the model dropdown needs a brand and the year
     * dropdown a model; otherwise the named dropdown opens, or closes when
     * it is the one already open.
     */
    method ToggleDropdown(name: DropdownName)
      requires Valid()
      modifies this
      ensures Valid()
      ensures selectedBrand == old(selectedBrand) && selectedModel == old(selectedModel)
        && selectedYear == old(selectedYear)
      ensures (name == ModelDropdown && selectedBrand.None?) || (name == YearDropdown && selectedModel.None?) ==>
        activeDropdown == old(activeDropdown) && searchTerm == old(searchTerm)
      ensures !((name == ModelDropdown && selectedBrand.None?) || (name == YearDropdown && selectedModel.None?)) ==>
        activeDropdown == (if old(activeDropdown) == Some(name) then None else Some(name)) && searchTerm == ""
    {
      if name == ModelDropdown && selectedBrand.None? {
        return;
      }
      if name == YearDropdown && selectedModel.None? {
        return;
      }
      activeDropdown := if activeDropdown == Some(name) then None else Some(name);
      searchTerm := "";
    }

    /** The dropdown's close button or a click outside it. */
    method CloseDropdown()
      requires Valid() && activeDropdown.Some?
      modifies this
      ensures Valid()
      ensures activeDropdown.None? && searchTerm == ""
      ensures selectedBrand == old(selectedBrand) && selectedModel == old(selectedModel)
        && selectedYear == old(selectedYear)
    {
      activeDropdown := None;
      searchTerm := "";
    }

    /** Typing in the search box of the open brand or model dropdown. */
    method TypeSearch(term: string)
      requires Valid() && activeDropdown in {Some(BrandDropdown), Some(ModelDropdown)}
      modifies this
      ensures Valid()
      ensures searchTerm == term && activeDropdown == old(activeDropdown)
      ensures selectedBrand == old(selectedBrand) && selectedModel == old(selectedModel)
        && selectedYear == old(selectedYear)
    {
      searchTerm := term;
    }

    /** The hook cell that feeds the named dropdown. */
    function CellOf(which: DropdownName): FipeCell {
      match which
      case BrandDropdown => brandsCell
      case ModelDropdown => modelsCell
      case YearDropdown => yearsCell
    }

    /**
     * The fetch of generation `tag` of the named dropdown's hook ends: that
     * cell's completion (a current fetch stores its data or error and stops
     * the spinner, a replaced one changes nothing); no other state changes.
     */
    method CompleteFetch(which: DropdownName, tag: nat, outcome: Outcome)
      requires Valid()
      requires tag in CellOf(which).pending
      modifies CellOf(which)
      ensures Valid()
      ensures selectedBrand == old(selectedBrand) && selectedModel == old(selectedModel)
        && selectedYear == old(selectedYear) && activeDropdown == old(activeDropdown)
      ensures var c := CellOf(which);
        && c.pending == old(c.pending) - {tag} && c.url == old(c.url) && c.generation == old(c.generation)
        && (tag != c.generation ==> c.data == old(c.data) && c.loading == old(c.loading) && c.error == old(c.error))
        && (tag == c.generation ==> !c.loading)
        && (tag == c.generation && outcome.Received? ==> c.data == Some(outcome.json) && c.error == old(c.error))
        && (tag == c.generation && !outcome.Received? ==> c.data == old(c.data) && c.error == Some(ErrorText(outcome)))
    {
      match which
      case BrandDropdown => brandsCell.Complete(tag, outcome);
      case ModelDropdown => modelsCell.Complete(tag, outcome);
      case YearDropdown => yearsCell.Complete(tag, outcome);
    }
  }
}

=== FILE: parity.dfy ===
/**
 * Client/server parity of the appointment flow: what AppointmentForm's
 * onSubmit sends (src/components/forms/appointment-form.tsx) against what
 * scheduleAppointment accepts (src/app/actions.ts).
 *
 * As written the two never agree: the form sends consent as the text of a
 * boolean while the server only takes the checkbox value "on", and the
 * form has no reason-for-selling field while the server requires one. So
 * every submission comes back as a validation error. The corrected pair
 * sends "on" for a ticked box (and nothing otherwise) and drops the reason
 * from the schema this form is checked against; with it, everything the
 * client's own validation lets through is accepted.
 */
module Parity {
  import opened Common
  import opened Fipe
  import opened Actions
  import opened Appointment

  // ----- as written -----

  /** Whatever the user ticks, the payload's consent value is never "on". */
  lemma ConsentNeverOn(v: ContactValues, vehicleType: string, brand: Option<FipeItem>,
                       model: Option<FipeItem>, year: Option<FipeItem>, toIso: int -> string)
    ensures Lookup(Payload(v, vehicleType, brand, model, year, toIso), "lgpdConsent") != Some("on")
  {
    PayloadFields(v, vehicleType, brand, model, year, toIso);
  }

  /**
   * Of nine schema parts in a row, only the fourth is about `f`: the
   * reported entry of `f` is the fourth part's own.
   */
  lemma FlattenFourthOfNine(p1: seq<Issue>, p2: seq<Issue>, p3: seq<Issue>, p4: seq<Issue>, p5: seq<Issue>,
                            p6: seq<Issue>, p7: seq<Issue>, p8: seq<Issue>, p9: seq<Issue>, f: string)
    requires Avoids(p1, f) && Avoids(p2, f) && Avoids(p3, f)
    requires Avoids(p5, f) && Avoids(p6, f) && Avoids(p7, f) && Avoids(p8, f) && Avoids(p9, f)
    requires f in Flatten(p4)
    ensures f in Flatten(p1 + p2 + p3 + p4 + p5 + p6 + p7 + p8 + p9)
    ensures Flatten(p1 + p2 + p3 + p4 + p5 + p6 + p7 + p8 + p9)[f] == Flatten(p4)[f]
  {
    assert Avoids(p1 + p2 + p3, f);
    FlattenPrependAvoiding(p1 + p2 + p3, p4, f);
    FlattenAppendAvoiding(p1 + p2 + p3 + p4, p5, f);
    FlattenAppendAvoiding(p1 + p2 + p3 + p4 + p5, p6, f);
    FlattenAppendAvoiding(p1 + p2 + p3 + p4 + p5 + p6, p7, f);
    FlattenAppendAvoiding(p1 + p2 + p3 + p4 + p5 + p6 + p7, p8, f);
    FlattenAppendAvoiding(p1 + p2 + p3 + p4 + p5 + p6 + p7 + p8, p9, f);
  }

  /** A request without a reason for selling is reported under that field, as a null value. */
  lemma MissingReasonReported(fd: FormData, isValidDate: string -> bool)
    requires Lookup(fd, "reasonForSelling").None?
    ensures var errors := Flatten(AppointmentIssues(fd, isValidDate));
      "reasonForSelling" in errors && errors["reasonForSelling"] == [NullMessage]
  {
    var f := "reasonForSelling";
    var reason := StringMin(f, Lookup(fd, f), 1, "Motivo é obrigatório");
    assert Flatten(reason)[f] == [NullMessage];
    FlattenFourthOfNine(
      StringMin("vehicleBrand", Lookup(fd, "vehicleBrand"), 1, "Marca é obrigatória"),
      StringMin("vehicleModel", Lookup(fd, "vehicleModel"), 1, "Modelo é obrigatório"),
      StringMin("vehicleYear", Lookup(fd, "vehicleYear"), 1, "Ano é obrigatório"),
      reason,
      StringMin("name", Lookup(fd, "name"), 2, "Nome é obrigatório"),
      StringMin("unit", Lookup(fd, "unit"), 1, "Unidade é obrigatória"),
      DateIssues(Lookup(fd, "preferredDate"), isValidDate),
      StringMin("preferredTime", Lookup(fd, "preferredTime"), 1, "Horário é obrigatório"),
      ConsentIssues(Lookup(fd, "lgpdConsent")),
      f);
  }

  /**
   * Every submission of AppointmentForm is rejected: whatever was filled
   * in, the server answers with the validation message and reports both
   * the missing reason and the consent.
   */
  lemma EverySubmissionRejected(v: ContactValues, vehicleType: string, brand: Option<FipeItem>,
                                model: Option<FipeItem>, year: Option<FipeItem>, toIso: int -> string,
                                isValidDate: string -> bool, saveThrows: bool)
    ensures var r := ScheduleAppointment(Payload(v, vehicleType, brand, model, year, toIso), isValidDate, saveThrows);
      && r.message == ValidationMessage && r.success.None? && r.errors.Some?
      && "reasonForSelling" in r.errors.value && r.errors.value["reasonForSelling"] == [NullMessage]
      && "lgpdConsent" in r.errors.value && r.errors.value["lgpdConsent"] == [ConsentMessage]
  {
    var fd := Payload(v, vehicleType, brand, model, year, toIso);
    PayloadFields(v, vehicleType, brand, model, year, toIso);
    MissingReasonReported(fd, isValidDate);
    ConsentRejectedUnlessOn(fd, isValidDate);
  }

  // ----- corrected -----

  /** A ticked checkbox is sent as "on", its native form value; an unticked one is left out. */
  function ConsentValue(checked: bool): (value: JsValue)
    ensures Serialized(value, d => "") == (if checked then Some("on") else None)
  {
    if checked then JsString("on") else JsUndefined
  }

  /** finalData with the consent entry sent as a checkbox would send it. */
  function CorrectedFinalData(v: ContactValues, vehicleType: string, brand: Option<FipeItem>,
                              model: Option<FipeItem>, year: Option<FipeItem>): (es: seq<(string, JsValue)>)
    ensures |es| == |PayloadKeys| && forall i :: 0 <= i < |es| ==> es[i].0 == PayloadKeys[i]
    ensures forall i :: 0 <= i < |es| && i != 4 ==> es[i] == FinalData(v, vehicleType, brand, model, year)[i]
  {
    FinalDataKeys(v, vehicleType, brand, model, year);
    FinalData(v, vehicleType, brand, model, year)[4 := ("lgpdConsent", ConsentValue(v.lgpdConsent))]
  }

  /** The corrected FormData onSubmit hands to the server. */
  function CorrectedPayload(v: ContactValues, vehicleType: string, brand: Option<FipeItem>,
                            model: Option<FipeItem>, year: Option<FipeItem>, toIso: int -> string): FormData
  {
    EncodeEntries(CorrectedFinalData(v, vehicleType, brand, model, year), toIso)
  }

  /** What the server reads back from the corrected payload: every field, and no reason for selling. */
  lemma CorrectedPayloadFields(v: ContactValues, vehicleType: string, brand: Option<FipeItem>,
                               model: Option<FipeItem>, year: Option<FipeItem>, toIso: int -> string)
    ensures var fd := CorrectedPayload(v, vehicleType, brand, model, year, toIso);
      && Lookup(fd, "name") == Some(v.name)
      && Lookup(fd, "phone") == Some(v.phone)
      && Lookup(fd, "unit") == Some(v.unit)
      && Lookup(fd, "preferredTime") == Some(v.preferredTime)
      && Lookup(fd, "lgpdConsent") == (if v.lgpdConsent then Some("on") else None)
      && Lookup(fd, "preferredDate") == (if v.preferredDate.Some? then Some(toIso(v.preferredDate.value)) else None)
      && Lookup(fd, "vehicleType") == Some(vehicleType)
      && Lookup(fd, "vehicleBrand") == Some(NameOrEmpty(brand))
      && Lookup(fd, "vehicleModel") == Some(NameOrEmpty(model))
      && Lookup(fd, "vehicleYear") == Some(NameOrEmpty(year))
      && Lookup(fd, "reasonForSelling") == None
  {
    var es := CorrectedFinalData(v, vehicleType, brand, model, year);
    var fd := EncodeEntries(es, toIso);
    var whole := FinalData(v, vehicleType, brand, model, year);
    EncodedPayloadKeys(es, toIso);
    assert Lookup(fd, PayloadKeys[0]) == Serialized(whole[0].1, toIso);
    assert Lookup(fd, PayloadKeys[1]) == Serialized(whole[1].1, toIso);
    assert Lookup(fd, PayloadKeys[2]) == Serialized(whole[2].1, toIso);
    assert Lookup(fd, PayloadKeys[3]) == Serialized(whole[3].1, toIso);
    assert Lookup(fd, PayloadKeys[4]) == Serialized(ConsentValue(v.lgpdConsent), toIso);
    assert Lookup(fd, PayloadKeys[5]) == Serialized(whole[5].1, toIso);
    assert Lookup(fd, PayloadKeys[6]) == Serialized(whole[6].1, toIso);
    assert Lookup(fd, PayloadKeys[7]) == Serialized(whole[7].1, toIso);
    assert Lookup(fd, PayloadKeys[8]) == Serialized(whole[8].1, toIso);
    assert Lookup(fd, PayloadKeys[9]) == Serialized(whole[9].1, toIso);
  }

  /** The schema this form is checked against: the server's, without the reason for selling. */
  function FormAppointmentIssues(fd: FormData, isValidDate: string -> bool): seq<Issue> {
    StringMin("vehicleBrand", Lookup(fd, "vehicleBrand"), 1, "Marca é obrigatória")
    + StringMin("vehicleModel", Lookup(fd, "vehicleModel"), 1, "Modelo é obrigatório")
    + StringMin("vehicleYear", Lookup(fd, "vehicleYear"), 1, "Ano é obrigatório")
    + StringMin("name", Lookup(fd, "name"), 2, "Nome é obrigatório")
    + StringMin("unit", Lookup(fd, "unit"), 1, "Unidade é obrigatória")
    + DateIssues(Lookup(fd, "preferredDate"), isValidDate)
    + StringMin("preferredTime", Lookup(fd, "preferredTime"), 1, "Horário é obrigatório")
    + ConsentIssues(Lookup(fd, "lgpdConsent"))
  }

  /** What the corrected schema accepts, field by field. */
  predicate FormAppointmentAcceptable(fd: FormData, isValidDate: string -> bool) {
    && HasMin(Lookup(fd, "vehicleBrand"), 1)
    && HasMin(Lookup(fd, "vehicleModel"), 1)
    && HasMin(Lookup(fd, "vehicleYear"), 1)
    && HasMin(Lookup(fd, "name"), 2)
    && HasMin(Lookup(fd, "unit"), 1)
    && (Lookup(fd, "preferredDate").None? || isValidDate(Lookup(fd, "preferredDate").value))
    && HasMin(Lookup(fd, "preferredTime"), 1)
    && Lookup(fd, "lgpdConsent") == Some("on")
  }

  /** scheduleAppointment checked against the corrected schema. */
  function ScheduleAppointmentCorrected(fd: FormData, isValidDate: string -> bool, saveThrows: bool): (r: ActionResult)
    ensures r.success.Some? <==> FormAppointmentAcceptable(fd, isValidDate) && !saveThrows
    ensures r.success.Some? ==> r.success.value && r.message == AppointmentSaved && r.errors.None?
    ensures !FormAppointmentAcceptable(fd, isValidDate) ==>
      r.message == ValidationMessage && r.errors == Some(Flatten(FormAppointmentIssues(fd, isValidDate)))
      && r.errors.value != map[]
    ensures FormAppointmentAcceptable(fd, isValidDate) && saveThrows ==>
      r == ActionResult(AppointmentFailed, None, None)
  {
    var issues := FormAppointmentIssues(fd, isValidDate);
    assert issues == [] <==> FormAppointmentAcceptable(fd, isValidDate);
    if issues != [] then
      assert issues[0].field in Flatten(issues);
      ActionResult(ValidationMessage, None, Some(Flatten(issues)))
    else if saveThrows then
      ActionResult(AppointmentFailed, None, None)
    else
      ActionResult(AppointmentSaved, Some(true), None)
  }

  /** For a request that does carry a reason, the correction changes nothing. */
  lemma CorrectionOnlyDropsReason(fd: FormData, isValidDate: string -> bool, saveThrows: bool)
    requires HasMin(Lookup(fd, "reasonForSelling"), 1)
    ensures FormAppointmentAcceptable(fd, isValidDate) <==> AppointmentAcceptable(fd, isValidDate)
    ensures ScheduleAppointmentCorrected(fd, isValidDate, saveThrows) == ScheduleAppointment(fd, isValidDate, saveThrows)
  {
    assert FormAppointmentIssues(fd, isValidDate) == AppointmentIssues(fd, isValidDate);
  }

  /**
   * Round trip: whatever passes the form's own validation with a complete
   * vehicle (FIPE names are never empty) and a date whose ISO text the
   * server parses is accepted by the corrected server.
   */
  lemma CorrectedRoundTrip(v: ContactValues, vehicleType: string, brand: FipeItem, model: FipeItem,
                           year: FipeItem, toIso: int -> string, isValidDate: string -> bool, saveThrows: bool)
    requires ClientSchemaValid(v)
    requires brand.nome != "" && model.nome != "" && year.nome != ""
    requires isValidDate(toIso(v.preferredDate.value))
    ensures var r := ScheduleAppointmentCorrected(
        CorrectedPayload(v, vehicleType, Some(brand), Some(model), Some(year), toIso), isValidDate, saveThrows);
      && r.errors.None?
      && r.success == (if saveThrows then None else Some(true))
      && r.message == (if saveThrows then AppointmentFailed else AppointmentSaved)
  {
    var fd := CorrectedPayload(v, vehicleType, Some(brand), Some(model), Some(year), toIso);
    CorrectedPayloadFields(v, vehicleType, Some(brand), Some(model), Some(year), toIso);
    assert FormAppointmentAcceptable(fd, isValidDate);
  }
}

=== FILE: site_data.dfy ===
/**
 * Reference data and link helpers (src/lib/data.ts): the placeholder-image
 * lookup, the business units, the WhatsApp deep link and the time slots.
 * The image catalogue (placeholder-images.json) and `encodeURIComponent`
 * are parameters; marketing copy tables (FAQs, reviews, navigation,
 * benefits) carry no logic and are not modelled.
 */
module SiteData {
  import opened Common

  /** One entry of the placeholder-image catalogue. */
  datatype ImageRecord = ImageRecord(id: string, imageUrl: string, imageHint: string)

  /** What getPlaceholderImage returns. */
  datatype Image = Image(url: string, hint: string)

  const FallbackImage: Image := Image("https://placehold.co/600x400", "placeholder")

  /** `catalogue.find(p => p.id === id)`: the first record with that id. */
  function FindImage(catalogue: seq<ImageRecord>, id: string): (r: Option<ImageRecord>)
    ensures r.None? <==> forall i :: 0 <= i < |catalogue| ==> catalogue[i].id != id
    ensures r.Some? ==> exists i :: (0 <= i < |catalogue| && catalogue[i] == r.value && r.value.id == id
                                      && forall j :: 0 <= j < i ==> catalogue[j].id != id)
  {
    var hasId := (rec: ImageRecord) => rec.id == id;
    var r := FindFirst(catalogue, hasId);
    if r.Some? then
      ghost var i :| FirstMatchAt(catalogue, hasId, i) && catalogue[i] == r.value;
      r
    else r
  }

  /** getPlaceholderImage: the matching record's url and hint, else the placehold.co fallback. */
  function GetPlaceholderImage(catalogue: seq<ImageRecord>, id: string): (img: Image)
    ensures FindImage(catalogue, id).None? ==> img == FallbackImage
    ensures FindImage(catalogue, id).Some? ==>
      img == Image(FindImage(catalogue, id).value.imageUrl, FindImage(catalogue, id).value.imageHint)
  {
    match FindImage(catalogue, id)
    case None => FallbackImage
    case Some(rec) => Image(rec.imageUrl, rec.imageHint)
  }

  /** An image id that the catalogue lists resolves to the first record with that id. */
  lemma PlaceholderImageFound(catalogue: seq<ImageRecord>, id: string, i: nat)
    requires i < |catalogue| && catalogue[i].id == id
    requires forall j :: 0 <= j < i ==> catalogue[j].id != id
    ensures GetPlaceholderImage(catalogue, id) == Image(catalogue[i].imageUrl, catalogue[i].imageHint)
  {
    var r := FindImage(catalogue, id);
    var k :| 0 <= k < |catalogue| && catalogue[k] == r.value && r.value.id == id
      && forall j :: 0 <= j < k ==> catalogue[j].id != id;
    assert k == i;
  }

  /**
   * A business unit. `imageKey` is the id passed to getPlaceholderImage for
   * the unit's picture; coordinates and the map embed URL are not modelled.
   */
  datatype Unit = Unit(
    id: string, slug: string, name: string, address: string, phone: string,
    whatsappNumber: string, openingHours: seq<string>, imageKey: string)

  const Units: seq<Unit> := [
    Unit("buritis", "buritis", "Unidade Buritis",
      "Rua Senador Lima Guimarães, 132, Buritis - BH/MG", "+5531993699510", "5531993699510",
      ["Segunda a Sexta: 08:00 - 18:00", "Sábado: 08:00 - 12:00"], "unit-buritis"),
    Unit("alipio-de-melo", "alipio-de-melo", "Unidade Alípio de Melo",
      "Rua Adelina Rita de Jesus, 165, Alípio de Melo - BH/MG", "+5531997401561", "5531997401561",
      ["Segunda a Sexta: 09:00 - 19:00", "Sábado: 09:00 - 13:00"], "unit-alipio-de-melo"),
    Unit("ceu-azul", "ceu-azul", "Unidade Céu Azul",
      "Rua Antonio José dos Santos, 312, Loja 15, Céu Azul - BH/MG", "+5531997401561", "5531997401561",
      ["Segunda a Sexta: 09:00 - 19:00", "Sábado: 09:00 - 13:00"], "unit-ceu-azul")
  ]

  /** Unit ids are pairwise distinct and each unit's id is its slug. */
  lemma UnitsWellFormed()
    ensures |Units| == 3
    ensures forall i, j :: 0 <= i < j < |Units| ==> Units[i].id != Units[j].id
    ensures forall i :: 0 <= i < |Units| ==> Units[i].id == Units[i].slug
  {
  }

  /** `UNITS.find(u => u.id === unitId)`; an undefined id matches no unit. */
  function FindUnit(units: seq<Unit>, unitId: Option<string>): (r: Option<Unit>)
    ensures r.None? <==> unitId.None? || forall i :: 0 <= i < |units| ==> units[i].id != unitId.value
    ensures r.Some? ==> exists i :: (0 <= i < |units| && units[i] == r.value && r.value.id == unitId.value
                                      && forall j :: 0 <= j < i ==> units[j].id != unitId.value)
  {
    if unitId.None? then None
    else
      var hasId := (u: Unit) => u.id == unitId.value;
      var r := FindFirst(units, hasId);
      if r.Some? then
        ghost var i :| FirstMatchAt(units, hasId, i) && units[i] == r.value;
        r
      else r
  }

  const WhatsAppBaseUrl: string := "https://wa.me/"
  const DefaultWhatsAppMessage: string := "Olá! Gostaria de mais informações sobre como vender meu carro."

  /**
   * getWhatsAppLink(unitId?, message = default): the WhatsApp number of the
   * unit with that id, or of the first unit as a fallback, and the message
   * passed through `encode` (encodeURIComponent).
   */
  function GetWhatsAppLink(unitId: Option<string>, message: Option<string>, encode: string -> string): (link: string)
    ensures WhatsAppBaseUrl <= link
  {
    var unit := FindUnit(Units, unitId);
    var phone := if unit.Some? then unit.value.whatsappNumber else Units[0].whatsappNumber;
    var text := if message.Some? then message.value else DefaultWhatsAppMessage;
    WhatsAppBaseUrl + phone + "?text=" + encode(text)
  }

  /** The link targets the number of the unit whose id matches, and carries the (default) message. */
  lemma WhatsAppLinkOfUnit(i: nat, message: Option<string>, encode: string -> string)
    requires i < |Units|
    ensures GetWhatsAppLink(Some(Units[i].id), message, encode)
      == WhatsAppBaseUrl + Units[i].whatsappNumber + "?text="
         + encode(if message.Some? then message.value else DefaultWhatsAppMessage)
  {
    UnitsWellFormed();
    var r := FindUnit(Units, Some(Units[i].id));
    var k :| 0 <= k < |Units| && Units[k] == r.value && r.value.id == Units[i].id
      && forall j :: 0 <= j < k ==> Units[j].id != Units[i].id;
    assert k == i;
  }

  /** An unknown or absent unit id falls back to the first unit's number. */
  lemma WhatsAppLinkFallback(unitId: Option<string>, message: Option<string>, encode: string -> string)
    requires unitId.None? || forall i :: 0 <= i < |Units| ==> Units[i].id != unitId.value
    ensures GetWhatsAppLink(unitId, message, encode)
      == WhatsAppBaseUrl + Units[0].whatsappNumber + "?text="
         + encode(if message.Some? then message.value else DefaultWhatsAppMessage)
  {
  }

  const TimeSlots: seq<string> := [
    "09:00", "09:30", "10:00", "10:30", "11:00", "11:30",
    "14:00", "14:30", "15:00", "15:30", "16:00", "16:30", "17:00"
  ]

  predicate IsDigit(c: char) {
    '0' <= c <= '9'
  }

  function DigitValue(c: char): nat
    requires IsDigit(c)
  {
    c as int - '0' as int
  }

  /** "HH:MM" with hours below 24 and minutes below 60. */
  predicate IsHhMm(s: string) {
    |s| == 5 && IsDigit(s[0]) && IsDigit(s[1]) && s[2] == ':' && IsDigit(s[3]) && IsDigit(s[4])
    && DigitValue(s[0]) * 10 + DigitValue(s[1]) < 24
    && DigitValue(s[3]) * 10 + DigitValue(s[4]) < 60
  }

  /** Minutes since midnight of an "HH:MM" string. */
  function Minutes(s: string): (m: nat)
    requires IsHhMm(s)
    ensures m < 24 * 60
  {
    (DigitValue(s[0]) * 10 + DigitValue(s[1])) * 60 + DigitValue(s[3]) * 10 + DigitValue(s[4])
  }

  /** Slot `i`: half-hourly from 09:00 for the six morning slots, then from 14:00. */
  lemma SlotMinutes(i: nat)
    requires i < |TimeSlots|
    ensures IsHhMm(TimeSlots[i])
    ensures Minutes(TimeSlots[i]) == if i < 6 then 9 * 60 + 30 * i else 14 * 60 + 30 * (i - 6)
  {
    var s := TimeSlots[i];
    if i < 2 {
      assert s[0] == '0' && s[1] == '9';
    } else if i < 6 {
      assert s[0] == '1' && s[1] == (if i < 4 then '0' else '1');
    } else {
      assert s[0] == '1';
    }
  }

  /** Each slot is well-formed and later than the one before it. */
  lemma TimeSlotsAdjacent()
    ensures |TimeSlots| == 13
    ensures forall i :: 0 <= i < |TimeSlots| ==> IsHhMm(TimeSlots[i])
    ensures forall i :: 0 < i < |TimeSlots| ==> Minutes(TimeSlots[i - 1]) < Minutes(TimeSlots[i])
  {
    forall i | 0 <= i < |TimeSlots| ensures IsHhMm(TimeSlots[i]) {
      SlotMinutes(i);
    }
    forall i | 0 < i < |TimeSlots| ensures Minutes(TimeSlots[i - 1]) < Minutes(TimeSlots[i]) {
      SlotMinutes(i - 1);
      SlotMinutes(i);
    }
  }

  /** A sequence of times that increases step by step increases throughout. */
  lemma {:induction false} AdjacentToSorted(ts: seq<string>, i: nat, j: nat)
    requires forall k :: 0 <= k < |ts| ==> IsHhMm(ts[k])
    requires forall k :: 0 < k < |ts| ==> Minutes(ts[k - 1]) < Minutes(ts[k])
    requires i < j < |ts|
    ensures Minutes(ts[i]) < Minutes(ts[j])
    decreases j - i
  {
    if i + 1 < j {
      AdjacentToSorted(ts, i + 1, j);
    }
  }

  /** TIME_SLOTS: 13 "HH:MM" entries in strictly increasing order. */
  lemma TimeSlotsSorted()
    ensures |TimeSlots| == 13
    ensures forall i :: 0 <= i < |TimeSlots| ==> IsHhMm(TimeSlots[i])
    ensures forall i, j :: 0 <= i < j < |TimeSlots| ==> Minutes(TimeSlots[i]) < Minutes(TimeSlots[j])
  {
    TimeSlotsAdjacent();
    forall i, j | 0 <= i < j < |TimeSlots|
      ensures Minutes(TimeSlots[i]) < Minutes(TimeSlots[j])
    {
      AdjacentToSorted(TimeSlots, i, j);
    }
  }
}
